=== FILE: README.md ===
# Backup storage and inbound-mail helpers in Dafny

This project models two independent pieces of the platform and proves properties about them.

**The backup storage contract** (`server/backup/src/storage.ts`). `BackupStorage` is the interface the backup tool reads and writes through. It has two variants:

- `FileStorage` works over a local directory tree. The model keeps an abstract file system: files with content and mtime, and directories. The tree invariant `Wf` says:
  - the root is a directory;
  - nothing is both a file and a directory;
  - every entry's parent is a directory.
- `AdapterStorage` works over a workspace-scoped object store, reached through a client. The model keeps an abstract store: objects as chunk lists with metadata, a "workspace exists" flag, and the keys on which the client throws.

Every operation addresses `join(root, name)`. Paths are sequences of segments, so `join` is concatenation and `dirname` drops the last segment. Each operation is a pure function from the state to a `Result`: either the new state or value, or the error Node or the client would throw. The two factories are modelled the same way:

- `createFileBackupStorage` makes the root directory when it is missing;
- `createStorageBackupStorage` makes the workspace container only when `check` is set and the container is absent.

**The inbound-mail string helpers** (`services/mail/pod-inbound-mail/src/utils.ts`). These are pure functions over strings (`seq<char>`):

- `getHeader`: case-insensitive lookup of the first header, with its value trimmed.
- `unescapeString`: five left-to-right rewrite passes in a fixed order.
- `removeContentTypeHeader`: the regular expression `/^Content-Type:.*?(?:\r\n|\n|\r)/im`, modelled as a leftmost matcher. It follows JavaScript's line terminators, the lazy `.*?`, and the order of the alternatives.
- `isEmptyString`, using the JavaScript `trim` whitespace set.
- The EML text `convertMtaToEml` builds.
- The deterministic logic of `parseContent`: the missing-header error, the `text/plain` short-circuit, and the attachment filter and conversion.

Some collaborators are passed in as values or functions rather than modelled. These are the EML parser, the HTML-to-Markdown pipeline, UUIDs, base64 decoding, the clock and the decoded message body (the `Externals` record).

Files:

- `base.dfy`: `Option`, `Result`, bytes, and generic sequence facts.
- `paths.dfy`: path segments, `Join`, `Dirname`.
- `storage_types.dfy`: `FileInfo` and the opaque stream handles.
- `local_storage.dfy`: `FileStorage` and its properties.
- `adapter_storage.dfy`: `AdapterStorage` and its properties.
- `backup_storage.dfy`: the interface over both variants, the factories, and the properties both variants share.
- `mail_text.dfy`: the JavaScript string primitives (`trim`, lower-casing, `split`, `join`).
- `mail_utils.dfy`: the mail helpers.
- `mail_props.dfy`: their properties.

## Model

| member | source | states |
|---|---|---|
| `Paths.DirnameOfJoin` | server/backup/src/storage.ts:41-42 | the parent of `join(root, name)` is `join(root, dirname(name))`, so it is never above the root |
| `Paths.JoinInjective` | server/backup/src/storage.ts:37 | distinct names under one root address distinct paths |
| `LocalStorage.MakeDirs` | server/backup/src/storage.ts:44 | recursive `mkdir` leaves files alone, keeps every existing directory with its mtime, adds only prefixes of the target (stamped `now`) and fails only when a prefix is a file |
| `LocalStorage.MkdirRecursiveSpec` | server/backup/src/storage.ts:166 | on a well-formed tree, recursive `mkdir` succeeds exactly when no prefix of the target is a file; afterwards the tree is well-formed and every prefix is a directory |
| `LocalStorage.MakeDirsSpec` | server/backup/src/storage.ts:44 | the same success condition and result for the creation of a missing parent |
| `LocalStorage.Write` | server/backup/src/storage.ts:40-48 | `write` hands back a write stream on exactly `join(root, name)`, and no file other than that target changes |
| `LocalStorageProps.EnsureParentSpec` | server/backup/src/storage.ts:41-45 | the parent-creation preamble succeeds exactly when no ancestor of the parent is a file, and keeps the tree well-formed with the parent a directory |
| `LocalStorageProps.WriteFileSpec` | server/backup/src/storage.ts:81-89 | `writeFile` succeeds exactly when the target is not a directory and no ancestor is a file; on success the tree stays well-formed, the target alone is set to the new content and time, and every existing directory is kept |
| `LocalStorageProps.WriteThenRead` | server/backup/src/storage.ts:36-89 | after `writeFile(n, d)`: `loadFile(n)` is `d`, `exists(n)` holds, `stat(n)` is the length of `d`, and `statInfo(n)` carries that size and the write time |
| `LocalStorageProps.OverwriteReplaces` | server/backup/src/storage.ts:81-89 | a second `writeFile` fully replaces the first: reads return the second content and mtime |
| `LocalStorageProps.WriteStreamSpec` | server/backup/src/storage.ts:40-48 | `write` succeeds exactly when no ancestor of the parent is a file; afterwards the tree is well-formed, the parent exists, and every new directory is a proper prefix of the target; opening the stream (flag `'w'`) leaves the target an empty file, unless the target is a directory or the parent is a file, when no file changes |
| `LocalStorageProps.WriteTruncates` | server/backup/src/storage.ts:47 | `write` on an existing file empties it as soon as the stream is opened: `loadFile` then gives no bytes and `stat` gives 0 |
| `LocalStorageProps.ReadsOnlyTarget` | server/backup/src/storage.ts:36-69 | two states that agree at `join(root, name)` (the same entry there, the same file-or-not status of every ancestor, and the same directory size) give the same `loadFile`, `exists`, `stat`, `statInfo` and the same `delete` outcome |
| `LocalStorageProps.DeleteSpec` | server/backup/src/storage.ts:67-69 | `delete` succeeds exactly when the target is a file; it removes that one file and nothing else |
| `LocalStorageProps.DeleteRecursiveEmpty` | server/backup/src/storage.ts:71-79 | on an empty directory, `deleteRecursive` removes exactly that directory, keeps the tree well-formed, and the path no longer exists |
| `LocalStorageProps.DeleteRecursiveGuard` | server/backup/src/storage.ts:71-79 | a directory with entries is left unchanged; a missing path, or a file, makes `readdir` throw and the error propagates |
| `LocalStorageProps.MetadataOfLocal` | server/backup/src/storage.ts:54-65 | `stat` and `statInfo` fail on a missing path and succeed on an existing one; the sizes agree, and `lastModified` is the file's mtime |
| `AdapterStorage.ConcatAppend` | server/backup/src/storage.ts:102 | joining chunks respects concatenation of chunk lists |
| `AdapterStorage.ConcatInOrder` | server/backup/src/storage.ts:100-103 | the joined content is the first chunk followed by the join of the rest, and its length is the total chunk size |
| `AdapterStorage.ExistsOf` | server/backup/src/storage.ts:115-121 | `exists` is true exactly when `client.stat` resolved to a record; a throw or `undefined` is false |
| `AdapterStorage.SizeOf` | server/backup/src/storage.ts:123-130 | `stat` is the reported size when there is one, else 0 (also when the call throws) |
| `AdapterStorage.InfoOf` | server/backup/src/storage.ts:132-144 | a throw or `undefined` gives `{0, '', undefined, 0}`; otherwise size, etag and `modifiedOn` map to their fields with defaults 0, '' and 0, and the content type is passed through |
| `AdapterStorage.Load` | server/backup/src/storage.ts:111-113 | a successful `load` is a read stream on exactly `join(root, name)` |
| `AdapterStorageProps.WriteThenRead` | server/backup/src/storage.ts:100-157 | after `writeFile(n, d)`: `loadFile(n)` is `d`, `exists(n)` holds, `stat(n)` is the length of `d`, and `statInfo(n)` has content type `application/octet-stream` |
| `AdapterStorageProps.OverwriteReplaces` | server/backup/src/storage.ts:154-157 | a second `writeFile` fully replaces the first |
| `AdapterStorageProps.WriteIsInvisible` | server/backup/src/storage.ts:105-109 | the upload `write` starts is not awaited, so the call itself changes no answer of `loadFile`, `load`, `exists`, `stat` or `statInfo`, for any name |
| `AdapterStorageProps.WritesOnlyTarget` | server/backup/src/storage.ts:146-157 | `writeFile` and `delete` leave every key other than `join(root, name)` unchanged |
| `AdapterStorageProps.ReadsOnlyTarget` | server/backup/src/storage.ts:100-144 | two stores that agree on the key give the same `loadFile`, `load`, `exists`, `stat` and `statInfo` |
| `AdapterStorageProps.DeleteRemovesKey` | server/backup/src/storage.ts:146-148 | `delete` removes exactly the one key, which no longer exists afterwards |
| `AdapterStorageProps.DeleteRecursiveKeepsWrites` | server/backup/src/storage.ts:150-152 | `deleteRecursive` after a write leaves the written content readable |
| `AdapterStorageProps.MetadataIsFailSoft` | server/backup/src/storage.ts:115-144 | `exists` holds exactly for a stored, non-failing key; otherwise `stat` is 0 and `statInfo` the defaults; `statInfo.size` always equals `stat` |
| `BackupStorage.Load` | server/backup/src/storage.ts:20 | on both variants a successful `load` streams `join(root, name)`; locally it always succeeds |
| `BackupStorage.Write` | server/backup/src/storage.ts:21 | on both variants `write` streams `join(root, name)`; the store is not changed, and no local file other than the target changes; remotely it always succeeds and changes nothing |
| `BackupStorage.WriteFile` | server/backup/src/storage.ts:23 | each variant's `writeFile` touches only its own backing state |
| `BackupStorage.Stat` | server/backup/src/storage.ts:26 | remote `stat` never fails; local `stat` succeeds exactly when the path exists |
| `BackupStorage.StatInfo` | server/backup/src/storage.ts:28 | remote `statInfo` never fails; local `statInfo` succeeds exactly when the path exists |
| `BackupStorage.Delete` | server/backup/src/storage.ts:29 | after a remote `delete` the resource does not exist; a local `delete` changes no directory and not the store |
| `BackupStorage.DeleteRecursive` | server/backup/src/storage.ts:31 | remote `deleteRecursive` changes nothing |
| `BackupStorage.CreateFileBackupStorage` | server/backup/src/storage.ts:163-169 | an existing root is left as it is; on success the storage is bound to the root |
| `BackupStorage.CreateStorageBackupStorage` | server/backup/src/storage.ts:174-185 | `check` is `true` unless given; the container is made exactly when `check` holds and it is missing; objects are never touched; with `check` false the store is unchanged |
| `BackupStorage.WriteThenRead` | server/backup/src/storage.ts:18-32 | on both variants `writeFile(n, d)` then `loadFile(n)` returns `d`, and `exists(n)` holds |
| `BackupStorage.OverwriteReplaces` | server/backup/src/storage.ts:23 | on both variants a later `writeFile` fully replaces an earlier one |
| `BackupStorage.MissingResource` | server/backup/src/storage.ts:54-144 | an absent resource gives 0 and the default info remotely, and an error locally |
| `BackupStorage.FactoryMakesOnlyWhenNeeded` | server/backup/src/storage.ts:179-183 | omitting `check` means `true`; with `check` false the store is untouched; with `check`, `make` happens exactly when the workspace is missing, and afterwards it exists |
| `BackupStorage.FactoryIdempotent` | server/backup/src/storage.ts:181-183 | a second factory call over the store the first one left makes nothing and changes nothing |
| `BackupStorage.CreateFileBackupStorageSpec` | server/backup/src/storage.ts:163-169 | on a well-formed tree a missing root is created unless a prefix of it is a file; afterwards it is a directory and the tree stays well-formed |
| `MailText.Trim` | services/mail/pod-inbound-mail/src/utils.ts:102 | `trim` returns the slice after the leading spaces; everything after it is space, and it neither starts nor ends with a space |
| `MailText.TrimEmptyIffAllSpace` | services/mail/pod-inbound-mail/src/utils.ts:137 | a string trims to empty exactly when it is all whitespace |
| `MailText.TrimOfTrimmed` | services/mail/pod-inbound-mail/src/utils.ts:68 | trimming a trimmed string changes nothing |
| `MailText.Split` | services/mail/pod-inbound-mail/src/utils.ts:68 | the first piece of `split(';')` holds no `;` and is a prefix of the input; with `MailText.JoinSplit`, which rejoins the pieces into the input, it is exactly the text before the first `;` |
| `MailText.JoinSplit` | services/mail/pod-inbound-mail/src/utils.ts:68 | joining the pieces of `split(c)` with `c` gives back the input, so `split` loses nothing but the separators |
| `MailText.SplitJoin` | services/mail/pod-inbound-mail/src/utils.ts:85 | comma-free addresses joined with `", "` split back at the commas into the addresses, each after the first with one leading space |
| `InboundMail.FirstHeader` | services/mail/pod-inbound-mail/src/utils.ts:102 | `find` gives the index of the first header whose name matches up to case; none before it matches |
| `InboundMail.GetHeader` | services/mail/pod-inbound-mail/src/utils.ts:100-103 | `undefined` exactly when no name matches; otherwise the trimmed value of the first match |
| `InboundMail.ReplaceEscape` | services/mail/pod-inbound-mail/src/utils.ts:93 | one rewrite pass never lengthens its input and leaves a backslash-free string unchanged |
| `InboundMail.Unescape` | services/mail/pod-inbound-mail/src/utils.ts:91-98 | `unescapeString` never lengthens its input and leaves a backslash-free string unchanged |
| `InboundMail.MatchAt` | services/mail/pod-inbound-mail/src/utils.ts:132 | a match starting at `p` ends after `p`, within the string |
| `InboundMail.FirstMatch` | services/mail/pod-inbound-mail/src/utils.ts:133 | the match found is the leftmost one, and when none is found no position matches |
| `InboundMail.RemoveContentTypeHeader` | services/mail/pod-inbound-mail/src/utils.ts:127-134 | a missing input is returned as missing; otherwise the result is never longer |
| `InboundMail.IsEmptyString` | services/mail/pod-inbound-mail/src/utils.ts:136-138 | true exactly when the input is missing or all whitespace |
| `InboundMail.Kept` | services/mail/pod-inbound-mail/src/utils.ts:57-63 | the attachments kept are exactly the input's attachments with a non-empty name: every kept one is named and comes from the input, and every named input attachment is kept |
| `InboundMail.MediaType` | services/mail/pod-inbound-mail/src/utils.ts:68 | the stored content type has no `;` and neither starts nor ends with whitespace; its value is stated by `InboundMailProps.MediaTypeIsHead` |
| `InboundMail.StripAngles` | services/mail/pod-inbound-mail/src/utils.ts:74 | the content id has no `<` or `>` left, and every other character is kept as often as before; with `InboundMailProps.StripAnglesAppend` the others also keep their order |
| `InboundMail.CollectAttachments` | services/mail/pod-inbound-mail/src/utils.ts:56-71 | the attachment loop stores the conversions of exactly the named attachments, in order |
| `InboundMail.CollectAttachmentsAt` | services/mail/pod-inbound-mail/src/utils.ts:64-70 | the `i`-th stored attachment comes from the `i`-th named one; it keeps its name, gets the `i`-th UUID and the parameter-free media type |
| `InboundMail.RewriteInline` | services/mail/pod-inbound-mail/src/utils.ts:73-76 | the rewrite of one attachment throws exactly when the content is Markdown and the attachment is inline with an id whose pattern the `RegExp` constructor rejects; the error is that `SyntaxError`'s message, `Invalid regular expression: /<pattern>/g: <reason>`, for the pattern built from the id without `<` and `>` |
| `InboundMail.RewriteContent` | services/mail/pod-inbound-mail/src/utils.ts:72-76 | content that is not Markdown is never rewritten; every error is a `SyntaxError` message |
| `InboundMail.GetEmailContent` | services/mail/pod-inbound-mail/src/utils.ts:105-125 | succeeds exactly when the parser reports no error and a result; the error text carries the parser's message, or says the result was undefined; html and attachments are passed through; a non-empty body is returned untouched; with both bodies empty, the text becomes the decoded content without its `Content-Type:` line |
| `InboundMail.ParseEmail` | services/mail/pod-inbound-mail/src/utils.ts:42-78 | after a successful parse: without Markdown the content is the text body and the parse succeeds; otherwise it succeeds exactly when the image rewrite does not throw, and the content is then the Markdown (or text body) with its inline image references rewritten; as many attachments are stored as have names |
| `InboundMail.ParseRich` | services/mail/pod-inbound-mail/src/utils.ts:40-78 | an email-parsing error is passed through; a parsed email goes on to the content and attachment step; the missing-header error never comes from here |
| `InboundMail.ParseContent` | services/mail/pod-inbound-mail/src/utils.ts:25-79 | fails with "Content-Type header not found" exactly when the header is missing; a `text/plain` type (any case) gives the decoded body and no attachments; any other type goes through `getEmailContent` and the attachment loop |
| `InboundMailProps.PeelEscape` | services/mail/pod-inbound-mail/src/utils.ts:93-97 | on an escaped backslash-free string, each pass undoes exactly the escapes of its own character |
| `InboundMailProps.UnescapeEscape` | services/mail/pod-inbound-mail/src/utils.ts:91-98 | `unescapeString` inverts escaping for every string without a backslash |
| `InboundMailProps.UnescapeMissesEscapedBackslash` | services/mail/pod-inbound-mail/src/utils.ts:93-97 | because `\n` is rewritten before `\\`, the escaped form of backslash-`n` comes back as a backslash and a newline |
| `InboundMailProps.UnescapeDoubleBackslash` | services/mail/pod-inbound-mail/src/utils.ts:97 | two backslashes become one |
| `InboundMailProps.MatchAtIff` | services/mail/pod-inbound-mail/src/utils.ts:132 | the matcher ends a match at `e` exactly when `s[p..e]` is a `Content-Type:` line at a line start, ended by one CRLF, LF or CR and with no other terminator |
| `InboundMailProps.RemoveCutsFirstLine` | services/mail/pod-inbound-mail/src/utils.ts:133 | the leftmost such line is cut out with its terminator, and the text before and after it is kept |
| `InboundMailProps.RemoveKeepsWithoutLine` | services/mail/pod-inbound-mail/src/utils.ts:133 | content with no such line is returned unchanged |
| `InboundMailProps.RemoveKeepsUnterminated` | services/mail/pod-inbound-mail/src/utils.ts:132 | a last line with no LF or CR survives whole after whatever comes before it, so a final unterminated `Content-Type:` line stays, and a cut line never reaches into it |
| `InboundMailProps.RemoveLeadingHeader` | services/mail/pod-inbound-mail/src/utils.ts:127-134 | `"Content-Type: text/html\r\nHi"` becomes `"Hi"` |
| `InboundMailProps.GetHeaderIgnoresCase` | services/mail/pod-inbound-mail/src/utils.ts:101-102 | names equal up to case look up the same value |
| `InboundMailProps.GetHeaderPrefersFirst` | services/mail/pod-inbound-mail/src/utils.ts:102 | a header placed in front wins over any later one of the same name |
| `InboundMailProps.EmlLines` | services/mail/pod-inbound-mail/src/utils.ts:81-89 | split at newlines, the EML text is its six header lines followed by the lines of the unescaped body |
| `InboundMailProps.EmlReadBack` | services/mail/pod-inbound-mail/src/utils.ts:81-89 | line by line the EML text reads back: the MIME version; date, sender, joined recipients and content type (the header, or `text/plain; charset=utf-8` when missing); an empty line; then exactly the unescaped body |
| `InboundMailProps.EmlRecipients` | services/mail/pod-inbound-mail/src/utils.ts:85 | the `To:` value splits back into the recipients |
| `InboundMailProps.KeptAppend` | services/mail/pod-inbound-mail/src/utils.ts:57-63 | the name filter works element by element, so it preserves input order |
| `InboundMailProps.KeptAllNamed` | services/mail/pod-inbound-mail/src/utils.ts:58 | when every attachment is named, none is skipped |
| `InboundMailProps.MediaTypeIsHead` | services/mail/pod-inbound-mail/src/utils.ts:68 | the stored content type is the text before the first `;` (all of it when there is none), trimmed |
| `InboundMailProps.MediaTypeIdempotent` | services/mail/pod-inbound-mail/src/utils.ts:68 | normalising a content type twice gives the same result as once |
| `InboundMailProps.StripAnglesAppend` | services/mail/pod-inbound-mail/src/utils.ts:74 | stripping distributes over concatenation, so the remaining characters keep their order |
| `InboundMailProps.StripAnglesClean` | services/mail/pod-inbound-mail/src/utils.ts:74 | an id without angle brackets is unchanged, so stripping is idempotent |
| `InboundMailProps.RewriteContentWithoutInline` | services/mail/pod-inbound-mail/src/utils.ts:72-76 | without a named inline attachment that has an id, the content is not rewritten |
| `InboundMailProps.RewriteFailsIffBadCid` | services/mail/pod-inbound-mail/src/utils.ts:56-77 | in Markdown content the rewrite loop throws exactly when some named attachment is inline with an id whose `RegExp` pattern is rejected, whatever the content |
| `InboundMailProps.ParseContentAttachment` | services/mail/pod-inbound-mail/src/utils.ts:56-77 | a parsed email fails only when it has Markdown content and a named inline attachment with a rejected id; otherwise the `i`-th stored attachment has the name, decoded data and media type of the `i`-th named attachment, and the `i`-th UUID |
| `LocalStorage.EnsureParent` | server/backup/src/storage.ts:41-45 | the `existsSync`/`mkdir` preamble; its contract is `LocalStorageProps.EnsureParentSpec` |
| `LocalStorage.MkdirRecursive` | server/backup/src/storage.ts:44 | recursive `mkdir`, failing on a file at the target itself; its contract is `LocalStorage.MkdirRecursiveSpec` |
| `LocalStorage.LoadFile` | server/backup/src/storage.ts:36-38 | `readFile`: the file's bytes, an error for a directory or a missing path; contract in `LocalStorageProps.WriteThenRead` and `LocalStorageProps.ReadsOnlyTarget` |
| `LocalStorage.ExistsOp` | server/backup/src/storage.ts:54-56 | `existsSync` of the joined path; contract in `LocalStorageProps.WriteThenRead` and `LocalStorageProps.MetadataOfLocal` |
| `LocalStorage.Stat` | server/backup/src/storage.ts:58-60 | `statSync(..).size`, throwing on a missing path; contract in `LocalStorageProps.MetadataOfLocal` |
| `LocalStorage.StatInfo` | server/backup/src/storage.ts:62-65 | size, mtime-derived etag and mtime, throwing on a missing path; contract in `LocalStorageProps.MetadataOfLocal` |
| `LocalStorage.Delete` | server/backup/src/storage.ts:67-69 | `rm` of one file; contract in `LocalStorageProps.DeleteSpec` |
| `LocalStorage.DeleteRecursive` | server/backup/src/storage.ts:71-79 | remove a directory only when `readdir` lists nothing; contract in `LocalStorageProps.DeleteRecursiveEmpty` and `LocalStorageProps.DeleteRecursiveGuard` |
| `LocalStorage.WriteFile` | server/backup/src/storage.ts:81-89 | parent preamble, then `writeFile`; contract in `LocalStorageProps.WriteFileSpec` |
| `AdapterStorage.LoadFile` | server/backup/src/storage.ts:100-103 | `client.read` concatenated; contract in `AdapterStorageProps.WriteThenRead` |
| `AdapterStorage.Exists` | server/backup/src/storage.ts:115-121 | `client.stat` mapped by `AdapterStorage.ExistsOf`; contract in `AdapterStorageProps.MetadataIsFailSoft` |
| `AdapterStorage.Stat` | server/backup/src/storage.ts:123-130 | `client.stat` mapped by `AdapterStorage.SizeOf`; contract in `AdapterStorageProps.MetadataIsFailSoft` |
| `AdapterStorage.StatInfo` | server/backup/src/storage.ts:132-144 | `client.stat` mapped by `AdapterStorage.InfoOf`; contract in `AdapterStorageProps.MetadataIsFailSoft` |
| `AdapterStorage.Delete` | server/backup/src/storage.ts:146-148 | `client.remove` of the key; contract in `AdapterStorageProps.DeleteRemovesKey` |
| `AdapterStorage.DeleteRecursive` | server/backup/src/storage.ts:150-152 | does nothing; contract in `AdapterStorageProps.DeleteRecursiveKeepsWrites` |
| `AdapterStorage.WriteFile` | server/backup/src/storage.ts:154-157 | `client.put` as an octet stream; contract in `AdapterStorageProps.WriteThenRead` and `AdapterStorageProps.WritesOnlyTarget` |
| `BackupStorage.LoadFile` | server/backup/src/storage.ts:19 | dispatch of `loadFile`; contract in `BackupStorage.WriteThenRead` and `BackupStorage.MissingResource` |
| `BackupStorage.Exists` | server/backup/src/storage.ts:24 | dispatch of `exists`; contract in `BackupStorage.WriteThenRead` |
| `InboundMail.ConvertMtaToEml` | services/mail/pod-inbound-mail/src/utils.ts:81-89 | the EML template; contract in `InboundMailProps.EmlLines` and `InboundMailProps.EmlReadBack` |

## Left out

- Node path handling: `join` and `dirname` normalise `.`, `..` and repeated separators. Paths here are already segment sequences, so `join` is concatenation and `dirname` drops the last segment.
- The byte flow of the streams from `load` and `write`, and the fire-and-forget `PassThrough` upload of the remote `write`. Its outcome is concurrent and unobservable, so both operations return opaque handles naming the path.
- `LocalStorage.Write`: opening the stream creates or empties the target, and that is modelled. When the open fails (`EISDIR` on a directory, `ENOTDIR` under a file), the error is emitted on the stream after `write` has resolved; the model returns the stream and leaves the tree unchanged. `createReadStream` errors of `load` are likewise not modelled.
- `toUTCString` formatting of the mtime is not modelled: it is a parameter `utc`, and the etag is `utc(mtime)`. The clock is a parameter `now`.
- `MeasureContext` tracing, `ctx.info`/`ctx.warn` and the `console.log` of the local factory: these are logging only.
- Directory mtimes are not updated when entries are added or removed below them. Every directory reports one `dirSize` from `stat`.
- `rm` of a missing path and `client.remove` of a missing key: the former raises the lookup error and the latter is assumed to succeed. The `StorageAdapter` implementation is not part of this model.
- `AdapterStorage.LoadFile`: a missing key is assumed to make `client.read` fail with `NoSuchKey`. The client's real behaviour is not visible.
- `AdapterStorage.Load`: a missing key is assumed to make `client.get` fail with `NoSuchKey`, for the same reason.
- The store's `wsExists` flag is read only by the factory. Every operation on a store whose workspace container is missing behaves as if the container existed, because what the client does then is not visible.
- `BackupStorage.CreateStorageBackupStorage`: failures of `client.exists` and `client.make` are not modelled; both are assumed to succeed.
- `writeFile` with a `Readable` source: data is modelled as bytes, and a string as its encoded bytes.
- Non-ASCII case folding: `toLowerCase` is modelled on ASCII letters only, which covers every header name and media type this code compares.
- Strings are sequences of Unicode scalar values rather than UTF-16 code units.
- `Option` does not distinguish `null` from `undefined`, and headers are pairs of strings. So these corners are not modelled: a `null` attachment name, which makes `a.name.length` throw (`utils.ts` line 58); a `null` HTML body, which passes `email.html !== undefined` (line 44); and a header tuple with no value, whose `?.[1]?.trim()` is `undefined` (line 102); a `null` parser result, which passes `json === undefined` (line 111) and then makes `email.text` throw (line 118); and a `null` attachment id, which passes `a.id !== undefined` (line 73) and then makes `a.id.replace` throw (line 74).
- `InboundMail.RewriteContent`: ECMAScript regular-expression syntax is not modelled. Whether `new RegExp` accepts the pattern built from an id is the input `patternError`. A rejection throws and aborts `parseContent`, and that is modelled. The `replaceAll` under an accepted pattern is the uninterpreted `rewriteCid`. What is modelled is the `<`/`>` stripping, the pattern text, and the conditions for the rewrite.
- `readEml`, `sanitizeHtml` with `TurndownService`, `randomUUID`, `Buffer.from(…, 'base64')`, `new Date()` and `getDecodedContent` are inputs: the fields of `Externals`. A throw from the Markdown pipeline is `None` from `toMarkdown`.
- `plugins/text-editor-resources/src/kits/editor-kit.ts` is not part of this model (editor UI composition), and neither is `server-plugins/calendar/src/index.ts` (a resource descriptor).

=== FILE: adapter_storage.dfy ===
/** The remote variant of the backup storage contract (`AdapterStorage`):
    a workspace-scoped object store reached through an external client,
    with every resource at key `Join(root, name)`. The store is abstract
    state; the client's answers are derived from it. */
module AdapterStorage {
  import opened Base
  import opened Paths
  import opened StorageTypes

  /** A stored object: the chunks `read` returns, and its metadata. */
  datatype Blob = Blob(chunks: seq<Bytes>, etag: string, contentType: string, modifiedOn: int)

  /** One workspace's objects, whether its container exists, and the keys
      on which the client's calls currently throw. */
  datatype Store = Store(objects: map<Path, Blob>, wsExists: bool, faulty: set<Path>)

  /** Errors the client can raise. */
  datatype ClientError = NoSuchKey | ClientFailure

  /** The metadata record `client.stat` returns; every field may be
      undefined. */
  datatype BlobStat = BlobStat(size: Option<nat>, etag: Option<string>, contentType: Option<string>, modifiedOn: Option<int>)

  /** What a `client.stat` call produces: it throws, resolves to
      `undefined`, or resolves to a record. */
  datatype StatReply = Threw | Undefined | Found(stat: BlobStat)

  /** The content type every upload of this variant declares. */
  const OctetStream := "application/octet-stream"

  /** `Buffer.concat`: the chunks joined in order. */
  function Concat(chunks: seq<Bytes>): Bytes {
    if |chunks| == 0 then [] else Concat(chunks[..|chunks| - 1]) + chunks[|chunks| - 1]
  }

  /** The total number of bytes in `chunks`. */
  function TotalSize(chunks: seq<Bytes>): nat {
    if |chunks| == 0 then 0 else TotalSize(chunks[1..]) + |chunks[0]|
  }

  /** Joining respects concatenation of chunk lists. */
  lemma {:induction false} ConcatAppend(a: seq<Bytes>, b: seq<Bytes>)
    ensures Concat(a + b) == Concat(a) + Concat(b)
    decreases |b|
  {
    if |b| == 0 {
      assert b == [];
      AppendEmpty(a);
    } else {
      var b' := b[..|b| - 1];
      InitOfAppend(a, b);
      ConcatAppend(a, b');
      ConcatAssoc(Concat(a), Concat(b'), b[|b| - 1]);
    }
  }

  /** The joined content holds every chunk, in order, with nothing lost or
      added: its length is the total chunk size and each chunk appears at
      the offset where the previous ones end. */
  lemma {:induction false} ConcatInOrder(chunks: seq<Bytes>)
    ensures |Concat(chunks)| == TotalSize(chunks)
    ensures |chunks| > 0 ==> Concat(chunks) == chunks[0] + Concat(chunks[1..])
    decreases |chunks|
  {
    if |chunks| > 0 {
      assert chunks == [chunks[0]] + chunks[1..];
      ConcatAppend([chunks[0]], chunks[1..]);
      assert Concat([chunks[0]]) == chunks[0] by {
        assert [chunks[0]][..0] == [];
      }
      ConcatInOrder(chunks[1..]);
    }
  }

  /** The client's `stat` for one key, as the store would answer it. */
  function ClientStat(store: Store, key: Path): (r: StatReply)
    ensures r.Threw? <==> key in store.faulty
    ensures r.Undefined? <==> key !in store.faulty && key !in store.objects
  {
    if key in store.faulty then Threw
    else if key in store.objects then
      var b := store.objects[key];
      Found(BlobStat(Some(TotalSize(b.chunks)), Some(b.etag), Some(b.contentType), Some(b.modifiedOn)))
    else Undefined
  }

  // ---------------------------------------------------------------------
  // The fail-soft metadata mappings, over any client reply.
  // ---------------------------------------------------------------------

  /** `exists`: a thrown error and `undefined` both read as absent. */
  function ExistsOf(reply: StatReply): (r: bool)
    ensures r <==> reply.Found?
  {
    match reply
    case Threw => false
    case Undefined => false
    case Found(_) => true
  }

  /** `stat`: `st?.size ?? 0`, and `0` when the call throws. */
  function SizeOf(reply: StatReply): (r: nat)
    ensures reply.Found? && reply.stat.size.Some? ==> r == reply.stat.size.value
    ensures !(reply.Found? && reply.stat.size.Some?) ==> r == 0
  {
    match reply
    case Threw => 0
    case Undefined => 0
    case Found(st) => st.size.GetOr(0)
  }

  /** `statInfo`: each undefined field falls back to its default, the
      content type stays undefined, and a thrown error yields the
      placeholder. */
  function InfoOf(reply: StatReply): (r: FileInfo)
    ensures !reply.Found? ==> r == EmptyInfo
    ensures reply.Found? ==>
      && (reply.stat.size.Some? ==> r.size == reply.stat.size.value)
      && (reply.stat.size.None? ==> r.size == 0)
      && (reply.stat.etag.Some? ==> r.etag == reply.stat.etag.value)
      && (reply.stat.etag.None? ==> r.etag == "")
      && r.contentType == reply.stat.contentType
      && (reply.stat.modifiedOn.Some? ==> r.lastModified == reply.stat.modifiedOn.value)
      && (reply.stat.modifiedOn.None? ==> r.lastModified == 0)
  {
    match reply
    case Threw => FileInfo(0, "", None, 0)
    case Undefined => FileInfo(0, "", None, 0)
    case Found(st) => FileInfo(st.size.GetOr(0), st.etag.GetOr(""), st.contentType, st.modifiedOn.GetOr(0))
  }

  // ---------------------------------------------------------------------
  // The nine operations of AdapterStorage.
  // ---------------------------------------------------------------------

  /** `loadFile`: the chunks of `client.read`, concatenated. */
  function LoadFile(store: Store, root: Path, name: Path): Result<Bytes, ClientError> {
    var key := Join(root, name);
    if key in store.faulty then Failure(ClientFailure)
    else if key !in store.objects then Failure(NoSuchKey)
    else Success(Concat(store.objects[key].chunks))
  }

  /** `load`: the stream `client.get` returns; its errors propagate. */
  function Load(store: Store, root: Path, name: Path): (r: Result<Stream, ClientError>)
    ensures r.Success? ==> r.value == ReadStream(Join(root, name))
  {
    var key := Join(root, name);
    if key in store.faulty then Failure(ClientFailure)
    else if key !in store.objects then Failure(NoSuchKey)
    else Success(ReadStream(key))
  }

  /** `write`: a pass-through sink whose upload is started and never
      awaited; the store is not changed by the call itself. */
  function Write(store: Store, root: Path, name: Path): (Store, Stream) {
    (store, WriteStream(Join(root, name)))
  }

  function Exists(store: Store, root: Path, name: Path): bool {
    ExistsOf(ClientStat(store, Join(root, name)))
  }

  function Stat(store: Store, root: Path, name: Path): nat {
    SizeOf(ClientStat(store, Join(root, name)))
  }

  function StatInfo(store: Store, root: Path, name: Path): FileInfo {
    InfoOf(ClientStat(store, Join(root, name)))
  }

  /** `delete`: `client.remove` of the single key. */
  function Delete(store: Store, root: Path, name: Path): Result<Store, ClientError> {
    var key := Join(root, name);
    if key in store.faulty then Failure(ClientFailure)
    else Success(store.(objects := store.objects - {key}))
  }

  /** `deleteRecursive`: deliberately does nothing. */
  function DeleteRecursive(store: Store, root: Path, name: Path): Store {
    store
  }

  /** `writeFile`: `client.put` of the whole content under the key, always
      declared as an octet stream; the etag is whatever the store assigns. */
  function WriteFile(store: Store, root: Path, name: Path, data: Bytes, etag: string, now: int): Result<Store, ClientError> {
    var key := Join(root, name);
    if key in store.faulty then Failure(ClientFailure)
    else Success(store.(objects := store.objects[key := Blob([data], etag, OctetStream, now)]))
  }
}

/** Properties of the remote variant. */
module AdapterStorageProps {
  import opened Base
  import opened Paths
  import opened StorageTypes
  import opened AdapterStorage

  /** A name the client can serve: its key is not failing. */
  predicate Reachable(store: Store, root: Path, name: Path) {
    Join(root, name) !in store.faulty
  }

  /** Writing then reading returns exactly what was written, and the
      fail-soft metadata reflects the new object. */
  lemma WriteThenRead(store: Store, root: Path, name: Path, data: Bytes, etag: string, now: int)
    requires Reachable(store, root, name)
    ensures WriteFile(store, root, name, data, etag, now).Success?
    ensures var s' := WriteFile(store, root, name, data, etag, now).value;
      && LoadFile(s', root, name) == Success(data)
      && Exists(s', root, name)
      && Stat(s', root, name) == |data|
      && StatInfo(s', root, name) == FileInfo(|data|, etag, Some(OctetStream), now)
  {
    var s' := WriteFile(store, root, name, data, etag, now).value;
    var chunks := s'.objects[Join(root, name)].chunks;
    assert chunks == [data];
    assert Concat(chunks) == data by {
      assert chunks[..0] == [];
    }
    ConcatInOrder(chunks);
  }

  /** A second `writeFile` fully replaces the first. */
  lemma OverwriteReplaces(store: Store, root: Path, name: Path, d1: Bytes, d2: Bytes, e1: string, e2: string, t1: int, t2: int)
    requires Reachable(store, root, name)
    ensures WriteFile(store, root, name, d1, e1, t1).Success?
    ensures var s1 := WriteFile(store, root, name, d1, e1, t1).value;
      && WriteFile(s1, root, name, d2, e2, t2).Success?
      && LoadFile(WriteFile(s1, root, name, d2, e2, t2).value, root, name) == Success(d2)
  {
    var s1 := WriteFile(store, root, name, d1, e1, t1).value;
    WriteThenRead(s1, root, name, d2, e2, t2);
  }

  /** Every mutating operation changes at most the one key
      `Join(root, name)` and never the workspace flag or the failing keys. */
  lemma WritesOnlyTarget(store: Store, root: Path, name: Path, data: Bytes, etag: string, now: int, other: Path)
    requires other != Join(root, name)
    ensures WriteFile(store, root, name, data, etag, now).Success? ==>
      var s' := WriteFile(store, root, name, data, etag, now).value;
      && (other in s'.objects <==> other in store.objects)
      && (other in store.objects ==> s'.objects[other] == store.objects[other])
      && s'.wsExists == store.wsExists && s'.faulty == store.faulty
    ensures Delete(store, root, name).Success? ==>
      var s' := Delete(store, root, name).value;
      && (other in s'.objects <==> other in store.objects)
      && (other in store.objects ==> s'.objects[other] == store.objects[other])
      && s'.wsExists == store.wsExists && s'.faulty == store.faulty
  {
  }

  /** The upload `write` starts is never awaited, so the call itself is
      invisible: every read of every name gives what it gave before. */
  lemma WriteIsInvisible(store: Store, root: Path, name: Path, other: Path)
    ensures var s' := Write(store, root, name).0;
      && LoadFile(s', root, other) == LoadFile(store, root, other)
      && Load(s', root, other) == Load(store, root, other)
      && Exists(s', root, other) == Exists(store, root, other)
      && Stat(s', root, other) == Stat(store, root, other)
      && StatInfo(s', root, other) == StatInfo(store, root, other)
  {
  }

  /** Two stores that agree on one key. */
  ghost predicate AgreeAt(s1: Store, s2: Store, key: Path) {
    && (key in s1.objects <==> key in s2.objects)
    && (key in s1.objects ==> s1.objects[key] == s2.objects[key])
    && (key in s1.faulty <==> key in s2.faulty)
  }

  /** The read-only operations consult nothing but `Join(root, name)`. */
  lemma ReadsOnlyTarget(s1: Store, s2: Store, root: Path, name: Path)
    requires AgreeAt(s1, s2, Join(root, name))
    ensures LoadFile(s1, root, name) == LoadFile(s2, root, name)
    ensures Load(s1, root, name) == Load(s2, root, name)
    ensures Exists(s1, root, name) == Exists(s2, root, name)
    ensures Stat(s1, root, name) == Stat(s2, root, name)
    ensures StatInfo(s1, root, name) == StatInfo(s2, root, name)
  {
  }

  /** `delete` removes exactly the one key; afterwards it is absent. */
  lemma DeleteRemovesKey(store: Store, root: Path, name: Path)
    requires Reachable(store, root, name)
    ensures Delete(store, root, name).Success?
    ensures var s' := Delete(store, root, name).value;
      && s'.objects.Keys == store.objects.Keys - {Join(root, name)}
      && !Exists(s', root, name)
      && Stat(s', root, name) == 0
      && StatInfo(s', root, name) == EmptyInfo
  {
  }

  /** `deleteRecursive` never deletes anything, whatever was written
      under the name before: the object is still there and still reads
      back. */
  lemma DeleteRecursiveKeepsWrites(store: Store, root: Path, name: Path, data: Bytes, etag: string, now: int)
    requires Reachable(store, root, name)
    ensures WriteFile(store, root, name, data, etag, now).Success?
    ensures var s1 := WriteFile(store, root, name, data, etag, now).value;
      && DeleteRecursive(s1, root, name).objects == s1.objects
      && LoadFile(DeleteRecursive(s1, root, name), root, name) == Success(data)
  {
    WriteThenRead(store, root, name, data, etag, now);
  }

  /** Remote metadata never fails: a throwing client and a missing object
      both read as absent with size 0 and the placeholder info. */
  lemma MetadataIsFailSoft(store: Store, root: Path, name: Path)
    ensures Exists(store, root, name) <==> Join(root, name) in store.objects && Join(root, name) !in store.faulty
    ensures !Exists(store, root, name) ==>
      Stat(store, root, name) == 0 && StatInfo(store, root, name) == EmptyInfo
    ensures StatInfo(store, root, name).size == Stat(store, root, name)
  {
  }
}

=== FILE: backup_storage.dfy ===
/** The `BackupStorage` contract with its two variants, the two factories
    that build them, and the properties both variants share. */
module BackupStorage {
  import opened Base
  import opened Paths
  import opened StorageTypes
  import Local = LocalStorage
  import LocalProps = LocalStorageProps
  import Remote = AdapterStorage
  import RemoteProps = AdapterStorageProps

  /** The two implementations of the contract, each bound to its root. */
  datatype Backend = FileStorage(root: Path) | AdapterStorage(root: Path)

  /** Everything outside this layer: the local file system and the
      workspace's object store. */
  datatype World = World(fs: Local.FsState, store: Remote.Store)

  datatype StorageError = FsError(fs: Local.FsError) | ClientError(client: Remote.ClientError)

  function LoadFile(b: Backend, w: World, name: Path): Result<Bytes, StorageError> {
    match b
    case FileStorage(root) =>
      (match Local.LoadFile(w.fs, root, name)
       case Success(d) => Success(d)
       case Failure(e) => Failure(FsError(e)))
    case AdapterStorage(root) =>
      (match Remote.LoadFile(w.store, root, name)
       case Success(d) => Success(d)
       case Failure(e) => Failure(ClientError(e)))
  }

  function Load(b: Backend, w: World, name: Path): (r: Result<Stream, StorageError>)
    ensures r.Success? ==> r.value == ReadStream(Join(b.root, name))
    ensures b.FileStorage? ==> r.Success?
  {
    match b
    case FileStorage(root) => Success(Local.Load(root, name))
    case AdapterStorage(root) =>
      (match Remote.Load(w.store, root, name)
       case Success(s) => Success(s)
       case Failure(e) => Failure(ClientError(e)))
  }

  function Write(b: Backend, w: World, name: Path, now: int): (r: Result<(World, Stream), StorageError>)
    ensures r.Success? ==> r.value.1 == WriteStream(Join(b.root, name))
    ensures r.Success? ==> r.value.0.store == w.store
    ensures r.Success? ==> r.value.0.fs.files - {Join(b.root, name)} == w.fs.files - {Join(b.root, name)}
    ensures b.AdapterStorage? ==> r.Success? && r.value.0 == w
  {
    match b
    case FileStorage(root) =>
      (match Local.Write(w.fs, root, name, now)
       case Success(res) => Success((w.(fs := res.0), res.1))
       case Failure(e) => Failure(FsError(e)))
    case AdapterStorage(root) =>
      var res := Remote.Write(w.store, root, name);
      Success((w.(store := res.0), res.1))
  }

  function WriteFile(b: Backend, w: World, name: Path, data: Bytes, now: int, etag: string): (r: Result<World, StorageError>)
    ensures r.Success? && b.FileStorage? ==> r.value.store == w.store
    ensures r.Success? && b.AdapterStorage? ==> r.value.fs == w.fs
  {
    match b
    case FileStorage(root) =>
      (match Local.WriteFile(w.fs, root, name, data, now)
       case Success(fs') => Success(w.(fs := fs'))
       case Failure(e) => Failure(FsError(e)))
    case AdapterStorage(root) =>
      (match Remote.WriteFile(w.store, root, name, data, etag, now)
       case Success(s') => Success(w.(store := s'))
       case Failure(e) => Failure(ClientError(e)))
  }

  function Exists(b: Backend, w: World, name: Path): bool {
    match b
    case FileStorage(root) => Local.ExistsOp(w.fs, root, name)
    case AdapterStorage(root) => Remote.Exists(w.store, root, name)
  }

  /** The remote variant never fails here; the local one fails on a
      missing path. */
  function Stat(b: Backend, w: World, name: Path): (r: Result<nat, StorageError>)
    ensures b.AdapterStorage? ==> r.Success?
    ensures b.FileStorage? ==> (r.Success? <==> Exists(b, w, name))
  {
    match b
    case FileStorage(root) =>
      (match Local.Stat(w.fs, root, name)
       case Success(n) => Success(n)
       case Failure(e) => Failure(FsError(e)))
    case AdapterStorage(root) => Success(Remote.Stat(w.store, root, name))
  }

  function StatInfo(b: Backend, w: World, name: Path, utc: int -> string): (r: Result<FileInfo, StorageError>)
    ensures b.AdapterStorage? ==> r.Success?
    ensures b.FileStorage? ==> (r.Success? <==> Exists(b, w, name))
  {
    match b
    case FileStorage(root) =>
      (match Local.StatInfo(w.fs, root, name, utc)
       case Success(i) => Success(i)
       case Failure(e) => Failure(FsError(e)))
    case AdapterStorage(root) => Success(Remote.StatInfo(w.store, root, name))
  }

  function Delete(b: Backend, w: World, name: Path): (r: Result<World, StorageError>)
    ensures b.AdapterStorage? && r.Success? ==> !Exists(b, r.value, name)
    ensures b.FileStorage? && r.Success? ==> r.value.store == w.store && r.value.fs.dirs == w.fs.dirs
  {
    match b
    case FileStorage(root) =>
      (match Local.Delete(w.fs, root, name)
       case Success(fs') => Success(w.(fs := fs'))
       case Failure(e) => Failure(FsError(e)))
    case AdapterStorage(root) =>
      (match Remote.Delete(w.store, root, name)
       case Success(s') => Success(w.(store := s'))
       case Failure(e) => Failure(ClientError(e)))
  }

  function DeleteRecursive(b: Backend, w: World, name: Path): (r: Result<World, StorageError>)
    ensures b.AdapterStorage? ==> r == Success(w)
  {
    match b
    case FileStorage(root) =>
      (match Local.DeleteRecursive(w.fs, root, name)
       case Success(fs') => Success(w.(fs := fs'))
       case Failure(e) => Failure(FsError(e)))
    case AdapterStorage(root) => Success(w.(store := Remote.DeleteRecursive(w.store, root, name)))
  }

  // ---------------------------------------------------------------------
  // Factories.
  // ---------------------------------------------------------------------

  /** `createFileBackupStorage`: create the root directory (with its
      ancestors) when nothing exists there; an existing root is left as it
      is. */
  function CreateFileBackupStorage(fs: Local.FsState, root: Path, now: int): (r: Result<(Local.FsState, Backend), Local.FsError>)
    ensures r.Success? ==> r.value.1 == FileStorage(root)
    ensures Local.Exists(fs, root) ==> r == Success((fs, FileStorage(root)))
  {
    if Local.Exists(fs, root) then Success((fs, FileStorage(root)))
    else
      match Local.MkdirRecursive(fs, root, now)
      case Success(fs') => Success((fs', FileStorage(root)))
      case Failure(e) => Failure(e)
  }

  /** The outcome of `createStorageBackupStorage`: the store afterwards,
      the backend, and whether `client.make` was called. */
  datatype Created = Created(store: Remote.Store, backend: Backend, madeContainer: bool)

  /** `createStorageBackupStorage`: with `check` set, which it is unless
      the caller says otherwise, ask whether the workspace container exists
      and make it when it does not. */
  function CreateStorageBackupStorage(store: Remote.Store, root: Path, check: bool := true): (r: Created)
    ensures r.madeContainer <==> check && !store.wsExists
    ensures r.store.wsExists <==> store.wsExists || check
    ensures r.store.objects == store.objects && r.store.faulty == store.faulty
    ensures !check ==> r.store == store
    ensures r.backend == AdapterStorage(root)
  {
    if check && !store.wsExists then
      Created(store.(wsExists := true), AdapterStorage(root), true)
    else
      Created(store, AdapterStorage(root), false)
  }

  // ---------------------------------------------------------------------
  // Properties common to both variants.
  // ---------------------------------------------------------------------

  /** The conditions under which `writeFile` can succeed: a well-formed
      tree with no file or directory in the way locally, a reachable key
      remotely. */
  ghost predicate Writable(b: Backend, w: World, name: Path) {
    match b
    case FileStorage(root) =>
      && Local.Wf(w.fs)
      && Join(root, name) !in w.fs.dirs
      && !Local.AncestorIsFile(w.fs, Join(root, name))
    case AdapterStorage(root) => RemoteProps.Reachable(w.store, root, name)
  }

  /** On both variants, `writeFile(n, p)` followed by `loadFile(n)` returns
      exactly `p`, `exists(n)` becomes true and `stat(n)` is `|p|`. */
  lemma WriteThenRead(b: Backend, w: World, name: Path, data: Bytes, now: int, etag: string)
    requires Writable(b, w, name)
    ensures WriteFile(b, w, name, data, now, etag).Success?
    ensures var w' := WriteFile(b, w, name, data, now, etag).value;
      && LoadFile(b, w', name) == Success(data)
      && Exists(b, w', name)
      && Stat(b, w', name) == Success(|data|)
  {
    match b
    case FileStorage(root) =>
      LocalProps.WriteThenRead(w.fs, root, name, data, now, _ => "");
    case AdapterStorage(root) =>
      RemoteProps.WriteThenRead(w.store, root, name, data, etag, now);
  }

  /** On both variants a later `writeFile` fully replaces an earlier one. */
  lemma OverwriteReplaces(b: Backend, w: World, name: Path, d1: Bytes, d2: Bytes, t1: int, t2: int, e1: string, e2: string)
    requires Writable(b, w, name)
    ensures WriteFile(b, w, name, d1, t1, e1).Success?
    ensures var w1 := WriteFile(b, w, name, d1, t1, e1).value;
      && WriteFile(b, w1, name, d2, t2, e2).Success?
      && LoadFile(b, WriteFile(b, w1, name, d2, t2, e2).value, name) == Success(d2)
  {
    match b
    case FileStorage(root) =>
      LocalProps.OverwriteReplaces(w.fs, root, name, d1, d2, t1, t2);
    case AdapterStorage(root) =>
      RemoteProps.OverwriteReplaces(w.store, root, name, d1, d2, e1, e2, t1, t2);
  }

  /** A resource that was never written reads as absent on both variants;
      the remote one reports size 0 and the placeholder info, while the
      local one throws from `stat` and `statInfo`. */
  lemma MissingResource(b: Backend, w: World, name: Path, utc: int -> string)
    requires !Exists(b, w, name)
    ensures b.AdapterStorage? ==>
      Stat(b, w, name) == Success(0) && StatInfo(b, w, name, utc) == Success(EmptyInfo)
    ensures b.FileStorage? ==>
      Stat(b, w, name).Failure? && StatInfo(b, w, name, utc).Failure? && LoadFile(b, w, name).Failure?
  {
    if b.AdapterStorage? {
      RemoteProps.MetadataIsFailSoft(w.store, b.root, name);
    }
  }

  /** The remote factory touches the store only to make a missing
      container, and only when asked to check. */
  lemma FactoryMakesOnlyWhenNeeded(store: Remote.Store, root: Path)
    ensures CreateStorageBackupStorage(store, root) == CreateStorageBackupStorage(store, root, true)
    ensures CreateStorageBackupStorage(store, root, false).store == store
    ensures store.wsExists ==> !CreateStorageBackupStorage(store, root, true).madeContainer
    ensures !store.wsExists ==>
      CreateStorageBackupStorage(store, root, true).madeContainer &&
      CreateStorageBackupStorage(store, root, true).store.wsExists
  {
  }

  /** Building a second storage over the store the first one left makes
      nothing and changes nothing: the container check is idempotent. */
  lemma FactoryIdempotent(store: Remote.Store, root: Path, root': Path, check: bool)
    ensures var s1 := CreateStorageBackupStorage(store, root, check).store;
      && !CreateStorageBackupStorage(s1, root', check).madeContainer
      && CreateStorageBackupStorage(s1, root', check).store == s1
  {
  }

  /** The local factory on a well-formed tree succeeds unless a prefix of
      the root is a file, and leaves the root a directory whenever the
      root was not there before. */
  lemma CreateFileBackupStorageSpec(fs: Local.FsState, root: Path, now: int)
    requires Local.Wf(fs)
    ensures !Local.Exists(fs, root) ==>
      (CreateFileBackupStorage(fs, root, now).Success? <==> !Local.AncestorIsFile(fs, root))
    ensures !Local.Exists(fs, root) && CreateFileBackupStorage(fs, root, now).Success? ==>
      var fs' := CreateFileBackupStorage(fs, root, now).value.0;
      && Local.Wf(fs')
      && root in fs'.dirs
      && fs'.files == fs.files
  {
    if !Local.Exists(fs, root) {
      Local.MkdirRecursiveSpec(fs, root, now);
      assert root[..|root|] == root;
      assert (forall k :: 0 <= k <= |root| ==> root[..k] !in fs.files) <==> !Local.AncestorIsFile(fs, root);
    }
  }
}

=== FILE: base.dfy ===
/** Shared value types: optional values, results that can carry an error,
    and bytes. */
module Base {

  /** A value that may be absent (JavaScript `undefined` or `null`). */
  datatype Option<+T> = None | Some(value: T) {
    /** The value, or `default` when absent (JavaScript `??`). */
    function GetOr(default: T): T {
      match this
      case Some(v) => v
      case None => default
    }
  }

  /** The outcome of an operation that can throw: a value or the error. */
  datatype Result<+R, +E> = Success(value: R) | Failure(error: E)

  newtype byte = x: int | 0 <= x < 256

  type Bytes = seq<byte>

  // Sequence facts stated for any element type, so that the solver
  // compares elements without looking inside them (cheap even when the
  // elements are themselves sequences).

  /** Concatenation is associative. */
  lemma ConcatAssoc<T>(a: seq<T>, b: seq<T>, c: seq<T>)
    ensures a + (b + c) == (a + b) + c
  {
  }

  lemma TailOfSnoc<T>(xs: seq<T>, x: T)
    requires |xs| > 0
    ensures (xs + [x])[0] == xs[0] && (xs + [x])[1..] == xs[1..] + [x]
  {
  }

  lemma ConsTail<T>(xs: seq<T>)
    requires |xs| > 0
    ensures [xs[0]] + xs[1..] == xs
  {
  }

  lemma InitOfAppend<T>(a: seq<T>, b: seq<T>)
    requires |b| > 0
    ensures (a + b)[..|a + b| - 1] == a + b[..|b| - 1]
    ensures (a + b)[|a + b| - 1] == b[|b| - 1]
  {
  }

  lemma AppendEmpty<T>(a: seq<T>)
    ensures a + [] == a
  {
  }
}

=== FILE: local_storage.dfy ===
/** The local variant of the backup storage contract (`FileStorage`): a
    directory tree rooted at `root`, with every resource at
    `Join(root, name)`. The file system is abstract state; each operation is
    a pure transition returning the new state or the error Node would
    throw. */
module LocalStorage {
  import opened Base
  import opened Paths
  import opened StorageTypes

  /** The error kinds the file-system calls of this variant can raise. */
  datatype FsError = NotFound | NotADirectory | IsADirectory | AlreadyExists

  datatype FileEntry = FileEntry(data: Bytes, mtime: int)

  /** Regular files with content and modification time, directories with
      their modification time, and the size `stat` reports for a directory. */
  datatype FsState = FsState(files: map<Path, FileEntry>, dirs: map<Path, int>, dirSize: nat)

  /** The tree invariant every real file system keeps: the root `[]` is a
      directory, no path is both a file and a directory, and the parent of
      every entry is a directory. */
  ghost predicate Wf(st: FsState) {
    && [] in st.dirs
    && (forall p :: p in st.files ==> p !in st.dirs)
    && (forall p :: p in st.files ==> Dirname(p) in st.dirs)
    && (forall p :: p in st.dirs && |p| > 0 ==> Dirname(p) in st.dirs)
  }

  /** `existsSync`: a file or a directory is present at `p`. */
  predicate Exists(st: FsState, p: Path) {
    p in st.files || p in st.dirs
  }

  /** Some proper ancestor of `p` is a regular file. */
  predicate AncestorIsFile(st: FsState, p: Path) {
    exists k :: 0 <= k < |p| && p[..k] in st.files
  }

  /** The error a lookup of an absent `p` raises. */
  function LookupError(st: FsState, p: Path): FsError {
    if AncestorIsFile(st, p) then NotADirectory else NotFound
  }

  /** In a well-formed tree, every proper ancestor of an entry is a
      directory. */
  lemma {:induction false} AncestorsAreDirs(st: FsState, q: Path)
    requires Wf(st)
    requires Exists(st, q)
    ensures forall k :: 0 <= k < |q| ==> q[..k] in st.dirs
    decreases |q|
  {
    if |q| > 0 {
      var parent := Dirname(q);
      assert parent in st.dirs;
      AncestorsAreDirs(st, parent);
      forall k | 0 <= k < |q|
        ensures q[..k] in st.dirs
      {
        if k < |parent| {
          assert q[..k] == parent[..k];
        } else {
          assert q[..k] == parent;
        }
      }
    }
  }

  /** `mkdir(d, {recursive: true})` below an existing ancestor: creates `d`
      and its missing ancestors, stopping at the first one that exists. */
  function MakeDirs(st: FsState, d: Path, now: int): (r: Result<FsState, FsError>)
    ensures r.Success? ==> r.value.files == st.files && r.value.dirSize == st.dirSize && d in r.value.dirs
    ensures r.Success? ==> forall q :: q in st.dirs ==> q in r.value.dirs && r.value.dirs[q] == st.dirs[q]
    ensures r.Success? ==> forall q :: q in r.value.dirs && q !in st.dirs ==> IsPrefix(q, d) && r.value.dirs[q] == now
    ensures r.Failure? ==> exists k :: 0 <= k <= |d| && d[..k] in st.files
    decreases |d|
  {
    if d in st.dirs then Success(st)
    else if d in st.files then
      assert d[..|d|] == d;
      Failure(NotADirectory)
    else if |d| == 0 then Success(st.(dirs := st.dirs[d := now]))
    else
      match MakeDirs(st, Dirname(d), now)
      case Failure(e) =>
        assert forall k :: 0 <= k <= |d| - 1 ==> Dirname(d)[..k] == d[..k];
        Failure(e)
      case Success(st1) =>
        Success(st1.(dirs := st1.dirs[d := now]))
  }

  /** `mkdir(d, {recursive: true})`: an existing file at `d` itself is
      reported as already existing. */
  function MkdirRecursive(st: FsState, d: Path, now: int): Result<FsState, FsError> {
    if d in st.files then Failure(AlreadyExists) else MakeDirs(st, d, now)
  }

  /** Recursive mkdir succeeds exactly when no prefix of `d` is a file; it
      then keeps the tree well formed, makes `d` a directory and all of its
      ancestors directories, and adds no directory off the path to `d`. */
  lemma {:induction false} MkdirRecursiveSpec(st: FsState, d: Path, now: int)
    requires Wf(st)
    ensures MkdirRecursive(st, d, now).Success? <==> forall k :: 0 <= k <= |d| ==> d[..k] !in st.files
    ensures MkdirRecursive(st, d, now).Success? ==>
      var st' := MkdirRecursive(st, d, now).value;
      && Wf(st')
      && (forall k :: 0 <= k <= |d| ==> d[..k] in st'.dirs)
  {
    if d in st.files {
      assert d[..|d|] == d;
    } else {
      MakeDirsSpec(st, d, now);
    }
  }

  lemma {:induction false} MakeDirsSpec(st: FsState, d: Path, now: int)
    requires Wf(st)
    ensures MakeDirs(st, d, now).Success? <==> forall k :: 0 <= k <= |d| ==> d[..k] !in st.files
    ensures MakeDirs(st, d, now).Success? ==>
      var st' := MakeDirs(st, d, now).value;
      && Wf(st')
      && (forall k :: 0 <= k <= |d| ==> d[..k] in st'.dirs)
    decreases |d|
  {
    var r := MakeDirs(st, d, now);
    if d in st.dirs {
      AncestorsAreDirs(st, d);
      forall k | 0 <= k <= |d|
        ensures d[..k] !in st.files && d[..k] in st.dirs
      {
        if k == |d| { assert d[..k] == d; }
      }
    } else if d in st.files {
      assert d[..|d|] == d;
    } else {
      assert |d| > 0;
      var parent := Dirname(d);
      MakeDirsSpec(st, parent, now);
      assert forall k :: 0 <= k <= |parent| ==> parent[..k] == d[..k];
      if r.Success? {
        var st1 := MakeDirs(st, parent, now).value;
        var st' := r.value;
        assert st' == st1.(dirs := st1.dirs[d := now]);
        forall k | 0 <= k <= |d|
          ensures d[..k] !in st.files && d[..k] in st'.dirs
        {
          if k == |d| { assert d[..k] == d; }
          else { assert d[..k] == parent[..k]; }
        }
        assert Wf(st');
      } else {
        var k :| 0 <= k <= |parent| && parent[..k] in st.files;
        assert d[..k] in st.files;
      }
    }
  }

  /** The `existsSync(dirname)` / `mkdir` preamble of `write` and
      `writeFile`: create the parent directory when nothing is there. */
  function EnsureParent(st: FsState, p: Path, now: int): Result<FsState, FsError> {
    var dir := Dirname(p);
    if Exists(st, dir) then Success(st) else MkdirRecursive(st, dir, now)
  }

  /** `fs.promises.writeFile(p, data)`: create or truncate-and-replace the
      file; the parent must be a directory. */
  function PutFile(st: FsState, p: Path, data: Bytes, now: int): Result<FsState, FsError> {
    if p in st.dirs then Failure(IsADirectory)
    else if |p| == 0 || Dirname(p) !in st.dirs then Failure(LookupError(st, p))
    else Success(st.(files := st.files[p := FileEntry(data, now)]))
  }

  // ---------------------------------------------------------------------
  // The nine operations of FileStorage.
  // ---------------------------------------------------------------------

  /** `loadFile`: the whole content of the file at `Join(root, name)`. */
  function LoadFile(st: FsState, root: Path, name: Path): Result<Bytes, FsError> {
    var p := Join(root, name);
    if p in st.files then Success(st.files[p].data)
    else if p in st.dirs then Failure(IsADirectory)
    else Failure(LookupError(st, p))
  }

  /** `load`: a read stream on `Join(root, name)`; opening errors surface
      asynchronously on the stream and are not modelled. */
  function Load(root: Path, name: Path): Stream {
    ReadStream(Join(root, name))
  }

  /** `write`: create the missing parent directory, then open a write
      stream on `Join(root, name)`. The open uses the default flag `'w'`:
      it creates the file, or truncates it to nothing, before any byte is
      written, as `writeFile` of empty content does. When the open fails
      (the target is a directory, or its parent is not one) the error is
      emitted on the stream and the tree is left as it is. */
  function Write(st: FsState, root: Path, name: Path, now: int): (r: Result<(FsState, Stream), FsError>)
    ensures r.Success? ==> r.value.1 == WriteStream(Join(root, name))
    ensures r.Success? ==> r.value.0.files - {Join(root, name)} == st.files - {Join(root, name)}
  {
    var p := Join(root, name);
    match EnsureParent(st, p, now)
    case Failure(e) => Failure(e)
    case Success(st1) =>
      var open := PutFile(st1, p, [], now);
      Success((if open.Success? then open.value else st1, WriteStream(p)))
  }

  /** `exists`: never fails. */
  function ExistsOp(st: FsState, root: Path, name: Path): bool {
    Exists(st, Join(root, name))
  }

  /** `stat`: the size `statSync` reports; a missing path throws. */
  function Stat(st: FsState, root: Path, name: Path): Result<nat, FsError> {
    var p := Join(root, name);
    if p in st.files then Success(|st.files[p].data|)
    else if p in st.dirs then Success(st.dirSize)
    else Failure(LookupError(st, p))
  }

  /** `statInfo`: size and mtime from `statSync`; the etag is the mtime
      rendered by `utc` (`Date.toUTCString`); no content type. A missing
      path throws. */
  function StatInfo(st: FsState, root: Path, name: Path, utc: int -> string): Result<FileInfo, FsError> {
    var p := Join(root, name);
    if p in st.files then
      var f := st.files[p];
      Success(FileInfo(|f.data|, utc(f.mtime), None, f.mtime))
    else if p in st.dirs then
      Success(FileInfo(st.dirSize, utc(st.dirs[p]), None, st.dirs[p]))
    else Failure(LookupError(st, p))
  }

  /** `delete`: `rm` without `recursive` removes one file; a directory or a
      missing path throws. */
  function Delete(st: FsState, root: Path, name: Path): Result<FsState, FsError> {
    var p := Join(root, name);
    if p in st.files then Success(st.(files := st.files - {p}))
    else if p in st.dirs then Failure(IsADirectory)
    else Failure(LookupError(st, p))
  }

  /** The entries `readdir(p)` lists. */
  function Children(st: FsState, p: Path): set<Path> {
    set q | q in st.files.Keys + st.dirs.Keys && IsChild(p, q)
  }

  /** `readdir`: the entries of a directory; a file or missing path throws. */
  function ReadDir(st: FsState, p: Path): Result<set<Path>, FsError> {
    if p in st.dirs then Success(Children(st, p))
    else if p in st.files then Failure(NotADirectory)
    else Failure(LookupError(st, p))
  }

  /** `rm(p, {recursive: true})`: drop `p` and everything below it. */
  function RemoveTree(st: FsState, p: Path): FsState {
    st.(files := map q | q in st.files && !IsPrefix(p, q) :: st.files[q],
        dirs := map q | q in st.dirs && !IsPrefix(p, q) :: st.dirs[q])
  }

  /** `deleteRecursive`: list the directory and remove it only when the
      listing is empty; a failing `readdir` propagates. */
  function DeleteRecursive(st: FsState, root: Path, name: Path): Result<FsState, FsError> {
    var p := Join(root, name);
    match ReadDir(st, p)
    case Failure(e) => Failure(e)
    case Success(entries) => if entries == {} then Success(RemoveTree(st, p)) else Success(st)
  }

  /** `writeFile`: create the missing parent directory, then write. */
  function WriteFile(st: FsState, root: Path, name: Path, data: Bytes, now: int): Result<FsState, FsError> {
    var p := Join(root, name);
    match EnsureParent(st, p, now)
    case Failure(e) => Failure(e)
    case Success(st1) => PutFile(st1, p, data, now)
  }
}

/** Properties of the local variant. */
module LocalStorageProps {
  import opened Base
  import opened Paths
  import opened StorageTypes
  import opened LocalStorage

  /** In a well-formed tree an existing entry has no file among its
      ancestors. */
  lemma ExistingHasNoFileAncestor(st: FsState, q: Path)
    requires Wf(st) && Exists(st, q)
    ensures !AncestorIsFile(st, q)
  {
    AncestorsAreDirs(st, q);
  }

  /** The parent-creation preamble succeeds exactly when no proper
      ancestor of the parent is a file; it keeps the tree well formed,
      leaves every file alone and adds directories only on the path to the
      target. */
  lemma EnsureParentSpec(st: FsState, p: Path, now: int)
    requires Wf(st) && |p| > 0
    ensures EnsureParent(st, p, now).Success? <==> !AncestorIsFile(st, Dirname(p))
    ensures EnsureParent(st, p, now).Success? ==>
      var st1 := EnsureParent(st, p, now).value;
      && Wf(st1)
      && st1.files == st.files
      && st1.dirSize == st.dirSize
      && (Dirname(p) in st1.dirs <==> Dirname(p) !in st.files)
      && (forall q :: q in st.dirs ==> q in st1.dirs && st1.dirs[q] == st.dirs[q])
      && (forall q :: q in st1.dirs && q !in st.dirs ==> IsStrictPrefix(q, p))
  {
    var dir := Dirname(p);
    if Exists(st, dir) {
      ExistingHasNoFileAncestor(st, dir);
    } else {
      MkdirRecursiveSpec(st, dir, now);
      if !AncestorIsFile(st, dir) {
        assert forall k :: 0 <= k <= |dir| ==> dir[..k] !in st.files by {
          forall k | 0 <= k <= |dir|
            ensures dir[..k] !in st.files
          {
            if k == |dir| { assert dir[..k] == dir; }
          }
        }
      }
    }
  }

  /** `writeFile` succeeds exactly when the target is not a directory and
      no ancestor of it is a file. On success the tree stays well formed,
      the file at `Join(root, name)` holds exactly `data` (any previous
      content is replaced), no other file changes, and the only directories
      added are missing ancestors of the target. */
  lemma WriteFileSpec(st: FsState, root: Path, name: Path, data: Bytes, now: int)
    requires Wf(st)
    ensures var p := Join(root, name);
      WriteFile(st, root, name, data, now).Success? <==> p !in st.dirs && !AncestorIsFile(st, p)
    ensures var p := Join(root, name);
      WriteFile(st, root, name, data, now).Success? ==>
      var st' := WriteFile(st, root, name, data, now).value;
      && Wf(st')
      && st'.files == st.files[p := FileEntry(data, now)]
      && st'.dirSize == st.dirSize
      && (forall q :: q in st.dirs ==> q in st'.dirs && st'.dirs[q] == st.dirs[q])
      && (forall q :: q in st'.dirs && q !in st.dirs ==> IsStrictPrefix(q, p))
  {
    var p := Join(root, name);
    if |p| == 0 {
      assert p in st.dirs;
    } else {
      var dir := Dirname(p);
      EnsureParentSpec(st, p, now);
      assert AncestorIsFile(st, p) <==> dir in st.files || AncestorIsFile(st, dir) by {
        assert forall k :: 0 <= k < |dir| ==> dir[..k] == p[..k];
        assert p[..|dir|] == dir;
      }
      if p in st.dirs {
        assert dir in st.dirs;
      }
      var e := EnsureParent(st, p, now);
      if e.Success? {
        var st1 := e.value;
        assert p !in st.dirs ==> p !in st1.dirs;
      }
    }
  }

  /** Writing then reading returns exactly what was written, and the
      metadata calls see the new file. */
  lemma WriteThenRead(st: FsState, root: Path, name: Path, data: Bytes, now: int, utc: int -> string)
    requires Wf(st)
    requires Join(root, name) !in st.dirs && !AncestorIsFile(st, Join(root, name))
    ensures WriteFile(st, root, name, data, now).Success?
    ensures var st' := WriteFile(st, root, name, data, now).value;
      && LoadFile(st', root, name) == Success(data)
      && ExistsOp(st', root, name)
      && Stat(st', root, name) == Success(|data|)
      && StatInfo(st', root, name, utc) == Success(FileInfo(|data|, utc(now), None, now))
  {
    WriteFileSpec(st, root, name, data, now);
  }

  /** A second `writeFile` fully replaces the first: no trace of the first
      content remains. */
  lemma OverwriteReplaces(st: FsState, root: Path, name: Path, d1: Bytes, d2: Bytes, t1: int, t2: int)
    requires Wf(st)
    requires Join(root, name) !in st.dirs && !AncestorIsFile(st, Join(root, name))
    ensures WriteFile(st, root, name, d1, t1).Success?
    ensures var st1 := WriteFile(st, root, name, d1, t1).value;
      && WriteFile(st1, root, name, d2, t2).Success?
      && var st2 := WriteFile(st1, root, name, d2, t2).value;
      && LoadFile(st2, root, name) == Success(d2)
      && st2.files == st.files[Join(root, name) := FileEntry(d2, t2)]
  {
    var p := Join(root, name);
    WriteFileSpec(st, root, name, d1, t1);
    var st1 := WriteFile(st, root, name, d1, t1).value;
    assert !AncestorIsFile(st1, p) by {
      ExistingHasNoFileAncestor(st1, p);
    }
    WriteFileSpec(st1, root, name, d2, t2);
  }

  /** `write` creates the missing parent exactly as `writeFile` does; it
      fails only when a proper ancestor of the parent is a file. Opening
      the stream creates or empties the target unless the target is a
      directory or the parent is a file, when no file changes. */
  lemma WriteStreamSpec(st: FsState, root: Path, name: Path, now: int)
    requires Wf(st) && |Join(root, name)| > 0
    ensures var p := Join(root, name);
      Write(st, root, name, now).Success? <==> !AncestorIsFile(st, Dirname(p))
    ensures Write(st, root, name, now).Success? ==>
      var p := Join(root, name);
      var st' := Write(st, root, name, now).value.0;
      && Wf(st')
      && Exists(st', Dirname(p))
      && (forall q :: q in st'.dirs && q !in st.dirs ==> IsStrictPrefix(q, p))
      && (p !in st.dirs && Dirname(p) !in st.files ==> st'.files == st.files[p := FileEntry([], now)])
      && (p in st.dirs || Dirname(p) in st.files ==> st'.files == st.files)
  {
    var p := Join(root, name);
    EnsureParentSpec(st, p, now);
  }

  /** `write` on an existing file empties it as soon as the stream is
      opened: a stream closed without data leaves an empty file. */
  lemma WriteTruncates(st: FsState, root: Path, name: Path, now: int)
    requires Wf(st) && Join(root, name) in st.files
    ensures Write(st, root, name, now).Success?
    ensures var st' := Write(st, root, name, now).value.0;
      && LoadFile(st', root, name) == Success([])
      && Stat(st', root, name) == Success(0)
  {
    var p := Join(root, name);
    ExistingHasNoFileAncestor(st, p);
    WriteStreamSpec(st, root, name, now);
  }

  ghost predicate AgreeAt(s1: FsState, s2: FsState, p: Path) {
    && (p in s1.files <==> p in s2.files)
    && (p in s1.files ==> s1.files[p] == s2.files[p])
    && (p in s1.dirs <==> p in s2.dirs)
    && (p in s1.dirs ==> s1.dirs[p] == s2.dirs[p])
    && s1.dirSize == s2.dirSize
    && (forall k :: 0 <= k < |p| ==> (p[..k] in s1.files <==> p[..k] in s2.files))
  }

  /** The read-only operations look at nothing but `Join(root, name)`
      (and, for the error kind, at which of its ancestors are files). */
  lemma ReadsOnlyTarget(s1: FsState, s2: FsState, root: Path, name: Path, utc: int -> string)
    requires AgreeAt(s1, s2, Join(root, name))
    ensures LoadFile(s1, root, name) == LoadFile(s2, root, name)
    ensures ExistsOp(s1, root, name) == ExistsOp(s2, root, name)
    ensures Stat(s1, root, name) == Stat(s2, root, name)
    ensures StatInfo(s1, root, name, utc) == StatInfo(s2, root, name, utc)
    ensures Delete(s1, root, name).Failure? == Delete(s2, root, name).Failure?
  {
    var p := Join(root, name);
    assert LookupError(s1, p) == LookupError(s2, p);
  }

  /** `delete` removes exactly the one file and nothing else. */
  lemma DeleteSpec(st: FsState, root: Path, name: Path)
    requires Wf(st)
    ensures Delete(st, root, name).Success? <==> Join(root, name) in st.files
    ensures Delete(st, root, name).Success? ==>
      var st' := Delete(st, root, name).value;
      && Wf(st')
      && st'.files == st.files - {Join(root, name)}
      && st'.dirs == st.dirs
      && !ExistsOp(st', root, name)
  {
  }

  /** Every entry strictly below `p` passes through an entry that
      `readdir(p)` lists; so an empty listing means an empty subtree. */
  lemma ChildOnPath(st: FsState, p: Path, q: Path)
    requires Wf(st) && Exists(st, q)
    ensures IsStrictPrefix(p, q) ==> q[..|p| + 1] in Children(st, p)
  {
    if IsStrictPrefix(p, q) {
      var c := q[..|p| + 1];
      if |q| > |p| + 1 {
        AncestorsAreDirs(st, q);
        assert c in st.dirs;
      } else {
        assert c == q;
      }
      assert c[..|p|] == p;
    }
  }

  /** `deleteRecursive` on an empty directory removes that directory and
      nothing else; afterwards the directory no longer exists. */
  lemma DeleteRecursiveEmpty(st: FsState, root: Path, name: Path)
    requires Wf(st) && |Join(root, name)| > 0
    requires Join(root, name) in st.dirs && Children(st, Join(root, name)) == {}
    ensures DeleteRecursive(st, root, name).Success?
    ensures var st' := DeleteRecursive(st, root, name).value;
      && Wf(st')
      && st'.files == st.files
      && st'.dirs == st.dirs - {Join(root, name)}
      && !ExistsOp(st', root, name)
  {
    var p := Join(root, name);
    var st' := DeleteRecursive(st, root, name).value;
    assert st' == RemoveTree(st, p);
    forall q | q in st.files
      ensures !IsPrefix(p, q)
    {
      assert q[..|q|] == q;
      ChildOnPath(st, p, q);
    }
    forall q | q in st.dirs && q != p
      ensures !IsPrefix(p, q)
    {
      assert q[..|q|] == q;
      ChildOnPath(st, p, q);
    }
    assert st'.files == st.files;
    assert st'.dirs == st.dirs - {p};
    forall q | q in st'.dirs && |q| > 0
      ensures Dirname(q) in st'.dirs
    {
      assert Dirname(q) == p ==> IsChild(p, q) && q in Children(st, p);
    }
    forall q | q in st'.files
      ensures Dirname(q) in st'.dirs
    {
      assert Dirname(q) == p ==> IsChild(p, q) && q in Children(st, p);
    }
  }

  /** `deleteRecursive` on a directory with at least one entry leaves the
      whole tree as it was; on a missing path or a file the `readdir`
      error propagates. */
  lemma DeleteRecursiveGuard(st: FsState, root: Path, name: Path)
    ensures Children(st, Join(root, name)) != {} && Join(root, name) in st.dirs ==>
      DeleteRecursive(st, root, name) == Success(st)
    ensures !ExistsOp(st, root, name) ==>
      DeleteRecursive(st, root, name) == Failure(LookupError(st, Join(root, name)))
    ensures Join(root, name) in st.files && Join(root, name) !in st.dirs ==>
      DeleteRecursive(st, root, name) == Failure(NotADirectory)
  {
  }

  /** Local metadata is not fail-soft: `stat` and `statInfo` of a missing
      path throw, while `exists` reports `false`. On an existing file,
      `statInfo.size` agrees with `stat` and `lastModified` is the mtime. */
  lemma MetadataOfLocal(st: FsState, root: Path, name: Path, utc: int -> string)
    ensures !ExistsOp(st, root, name) ==>
      Stat(st, root, name).Failure? && StatInfo(st, root, name, utc).Failure?
    ensures ExistsOp(st, root, name) ==>
      && Stat(st, root, name).Success?
      && StatInfo(st, root, name, utc).Success?
      && StatInfo(st, root, name, utc).value.size == Stat(st, root, name).value
    ensures Join(root, name) in st.files ==>
      StatInfo(st, root, name, utc).value.lastModified == st.files[Join(root, name)].mtime
  {
  }
}

=== FILE: mail_props.dfy ===
/** Properties of the inbound-mail helpers: `unescapeString` undoes the
    escaping it is written for (and where it does not), the line
    `removeContentTypeHeader` cuts, case-insensitive header lookup, the
    EML text read back line by line, and what `parseContent` stores. */
module InboundMailProps {
  import opened Base
  import opened MailText
  import opened InboundMail

  // ---------------------------------------------------------------------
  // unescapeString against the escaping it undoes
  // ---------------------------------------------------------------------

  /** The characters `unescapeString` restores. */
  const Escapable: set<char> := {'\n', '\r', '\t', '"', '\\'}

  /** The character after the backslash in the escaped form of `c`. */
  function CodeOf(c: char): char
    requires c in Escapable
  {
    if c == '\n' then 'n' else if c == '\r' then 'r' else if c == '\t' then 't' else c
  }

  /** `s` with each character of `esc` written as a backslash and its
      code. */
  function EscapeSome(s: string, esc: set<char>): (r: string)
    requires esc <= Escapable
    ensures |r| >= |s|
    decreases |s|
  {
    if |s| == 0 then ""
    else (if s[0] in esc then ['\\', CodeOf(s[0])] else [s[0]]) + EscapeSome(s[1..], esc)
  }

  /** The JSON-style escaping of newline, carriage return, tab, quote and
      backslash. */
  function Escape(s: string): string {
    EscapeSome(s, Escapable)
  }

  /** A rewrite pass copies a character that is not a backslash. */
  lemma ReplaceSkip(x: char, t: string, code: char, repl: char)
    requires x != '\\'
    ensures ReplaceEscape([x] + t, code, repl) == [x] + ReplaceEscape(t, code, repl)
  {
    assert ([x] + t)[1..] == t;
  }

  /** Distinct escapable characters have distinct codes, and only the
      backslash has the backslash as its code. */
  lemma CodeOfInjective(x: char, c: char)
    requires x in Escapable && c in Escapable
    ensures x != c ==> CodeOf(x) != CodeOf(c)
    ensures CodeOf(x) == '\\' <==> x == '\\'
  {
  }

  /** A rewrite pass turns a leading backslash and `code` into `repl`. */
  lemma ReplaceHit(t: string, code: char, repl: char)
    ensures ReplaceEscape(['\\', code] + t, code, repl) == [repl] + ReplaceEscape(t, code, repl)
  {
    assert (['\\', code] + t)[2..] == t;
  }

  /** A rewrite pass copies a backslash followed by a code other than its
      own. */
  lemma ReplaceMiss(y: char, t: string, code: char, repl: char)
    requires y != code && y != '\\'
    ensures ReplaceEscape(['\\', y] + t, code, repl) == ['\\', y] + ReplaceEscape(t, code, repl)
  {
    assert (['\\', y] + t)[1..] == [y] + t;
    ReplaceSkip(y, t, code, repl);
  }

  /** On the escaped form of a backslash-free string, the rewrite pass for
      `c` undoes exactly the escapes of `c` and leaves the others alone. */
  lemma {:induction false} PeelEscape(s: string, esc: set<char>, c: char)
    requires '\\' !in s
    requires esc <= Escapable && c in esc
    ensures ReplaceEscape(EscapeSome(s, esc), CodeOf(c), c) == EscapeSome(s, esc - {c})
    decreases |s|
  {
    if |s| > 0 {
      var x := s[0];
      var rest := EscapeSome(s[1..], esc);
      assert '\\' !in s[1..] by {
        assert forall k :: 0 <= k < |s[1..]| ==> s[1..][k] == s[k + 1];
      }
      PeelEscape(s[1..], esc, c);
      var rest' := EscapeSome(s[1..], esc - {c});
      assert EscapeSome(s, esc - {c}) == (if x in esc - {c} then ['\\', CodeOf(x)] else [x]) + rest';
      if x in esc {
        CodeOfInjective(x, c);
        if x == c {
          ReplaceHit(rest, CodeOf(c), c);
        } else {
          ReplaceMiss(CodeOf(x), rest, CodeOf(c), c);
        }
      } else {
        ReplaceSkip(x, rest, CodeOf(c), c);
      }
    }
  }

  /** Escaping nothing is the identity. */
  lemma {:induction false} EscapeNone(s: string)
    ensures EscapeSome(s, {}) == s
    decreases |s|
  {
    if |s| > 0 {
      EscapeNone(s[1..]);
      assert s == [s[0]] + s[1..];
    }
  }

  /** The escapes left after each of the five passes. */
  lemma EscapeSets()
    ensures Escapable - {'\n'} == {'\r', '\t', '"', '\\'}
    ensures {'\r', '\t', '"', '\\'} - {'\r'} == {'\t', '"', '\\'}
    ensures {'\t', '"', '\\'} - {'\t'} == {'"', '\\'}
    ensures {'"', '\\'} - {'"'} == {'\\'}
    ensures {'\\'} - {'\\'} == {}
  {
  }

  /** The `\n` and `\r` passes undo the newline and carriage-return
      escapes. */
  lemma FirstPasses(s: string)
    requires '\\' !in s
    ensures ReplaceEscape(ReplaceEscape(Escape(s), 'n', '\n'), 'r', '\r') == EscapeSome(s, {'\t', '"', '\\'})
  {
    EscapeSets();
    PeelEscape(s, Escapable, '\n');
    PeelEscape(s, {'\r', '\t', '"', '\\'}, '\r');
  }

  /** The `\t` and `\"` passes undo the tab and quote escapes. */
  lemma MiddlePasses(s: string)
    requires '\\' !in s
    ensures ReplaceEscape(ReplaceEscape(EscapeSome(s, {'\t', '"', '\\'}), 't', '\t'), '"', '"') == EscapeSome(s, {'\\'})
  {
    EscapeSets();
    PeelEscape(s, {'\t', '"', '\\'}, '\t');
    PeelEscape(s, {'"', '\\'}, '"');
  }

  /** The `\\` pass undoes the backslash escapes, of which a
      backslash-free string has none. */
  lemma LastPass(s: string)
    requires '\\' !in s
    ensures ReplaceEscape(EscapeSome(s, {'\\'}), '\\', '\\') == s
  {
    EscapeSets();
    PeelEscape(s, {'\\'}, '\\');
    EscapeNone(s);
  }

  /** `unescapeString` inverts the escaping of every string that holds no
      backslash: its five passes each undo one kind of escape. */
  lemma UnescapeEscape(s: string)
    requires '\\' !in s
    ensures Unescape(Escape(s)) == s
  {
    FirstPasses(s);
    MiddlePasses(s);
    LastPass(s);
  }

  /** With a backslash the inverse fails: the string backslash-`n` escapes
      to two backslashes and `n`, and because the `\n` pass runs before the
      `\\` pass, that comes back as a backslash and a newline. */
  lemma UnescapeMissesEscapedBackslash()
    ensures Escape("\\n") == "\\\\n"
    ensures Unescape("\\\\n") == "\\\n"
    ensures Unescape(Escape("\\n")) != "\\n"
  {
    var s := "\\n";
    assert s[1..] == "n" && "n"[1..] == "";
    assert EscapeSome(s, Escapable) == "\\\\" + EscapeSome("n", Escapable);
    var t := "\\\\n";
    assert t[1..] == "\\n";
    assert "\\n"[2..] == "";
    var s1 := ReplaceEscape(t, 'n', '\n');
    assert s1 == "\\\n";
    assert s1[1..] == "\n";
    assert ReplaceEscape(s1, 'r', '\r') == s1;
    assert ReplaceEscape(s1, 't', '\t') == s1;
    assert ReplaceEscape(s1, '"', '"') == s1;
    assert ReplaceEscape(s1, '\\', '\\') == s1;
  }

  /** A doubled backslash becomes one. */
  lemma UnescapeDoubleBackslash()
    ensures Unescape("\\\\") == "\\"
  {
    var t := "\\\\";
    assert t[2..] == "";
    assert ReplaceEscape(t, 'n', '\n') == t;
    assert ReplaceEscape(t, 'r', '\r') == t;
    assert ReplaceEscape(t, 't', '\t') == t;
    assert ReplaceEscape(t, '"', '"') == t;
  }

  // ---------------------------------------------------------------------
  // removeContentTypeHeader against a description of the matched line
  // ---------------------------------------------------------------------

  /** `s[p..e]` is what `/^Content-Type:.*?(?:\r\n|\n|\r)/im` matches at
      `p`: a line start, the header name in any case, characters that are
      no line terminator, and one `\r\n`, `\n` or `\r` (a `\r` directly
      followed by `\n` is taken together with it). */
  predicate HeaderLineAt(s: string, p: nat, e: nat) {
    && AtLineStart(s, p) && ContentTypeAt(s, p)
    && p + |ContentTypeName| < e <= |s|
    && (forall m :: p + |ContentTypeName| <= m < e - 1 ==>
          !IsLineTerminator(s[m]) || (m == e - 2 && s[m] == '\r' && s[e - 1] == '\n'))
    && (s[e - 1] == '\n' || (s[e - 1] == '\r' && !(e < |s| && s[e] == '\n')))
  }

  /** The matcher finds a line at `p` ending at `e` exactly when the line
      there fits the description. */
  lemma MatchAtIff(s: string, p: nat, e: nat)
    ensures MatchAt(s, p) == Some(e) <==> HeaderLineAt(s, p, e)
  {
    if AtLineStart(s, p) && ContentTypeAt(s, p) {
      var j := p + |ContentTypeName|;
      var k := LineEnd(s, j);
      if HeaderLineAt(s, p, e) {
        var k' := if s[e - 1] == '\n' && e - 2 >= j && s[e - 2] == '\r' then e - 2 else e - 1;
        assert IsLineTerminator(s[k']);
        assert k <= k';
        assert k == k';
      }
    }
  }

  /** When the leftmost matching line spans `s[p..e]`, it is cut out with
      its terminator and everything around it is kept in order. */
  lemma RemoveCutsFirstLine(s: string, p: nat, e: nat)
    requires HeaderLineAt(s, p, e)
    requires forall q: nat, f: nat :: q < p ==> !HeaderLineAt(s, q, f)
    ensures RemoveContentTypeHeader(Some(s)) == Some(s[..p] + s[e..])
  {
    MatchAtIff(s, p, e);
    var m := FirstMatch(s, 0);
    assert m.Some?;
    var p', e' := m.value.0, m.value.1;
    assert p' <= p;
    MatchAtIff(s, p', e');
    assert p' == p;
  }

  /** When no line matches, the content is returned unchanged. */
  lemma RemoveKeepsWithoutLine(s: string)
    requires forall p: nat, e: nat :: !HeaderLineAt(s, p, e)
    ensures RemoveContentTypeHeader(Some(s)) == Some(s)
  {
    match FirstMatch(s, 0)
    case None =>
    case Some((p, e)) =>
      MatchAtIff(s, p, e);
  }

  /** A last line without `\n` or `\r` is kept whole, whatever comes
      before it: a `Content-Type:` line that is not terminated is not
      removed, and a line cut before it does not reach into it. */
  lemma RemoveKeepsUnterminated(pre: string, line: string)
    requires '\n' !in line && '\r' !in line
    ensures var r := RemoveContentTypeHeader(Some(pre + line)).value;
      |line| <= |r| && r[|r| - |line|..] == line
  {
    var s := pre + line;
    match FirstMatch(s, 0)
    case None =>
      assert s[|s| - |line|..] == line;
    case Some((p, e)) =>
      MatchAtIff(s, p, e);
      var r := s[..p] + s[e..];
      assert s[e..] == pre[e..] + line;
      assert r[|r| - |line|..] == line;
  }

  /** A header line at the very start, ended by `\r\n`, is cut. */
  lemma RemoveLeadingHeader()
    ensures RemoveContentTypeHeader(Some("Content-Type: text/html\r\nHi")) == Some("Hi")
  {
    var s := "Content-Type: text/html\r\nHi";
    assert Lower(s[0..13]) == ContentTypeName;
    assert HeaderLineAt(s, 0, 25);
    RemoveCutsFirstLine(s, 0, 25);
    assert s[..0] + s[25..] == "Hi";
  }

  // ---------------------------------------------------------------------
  // getHeader
  // ---------------------------------------------------------------------

  /** Names equal up to case find the same header. */
  lemma {:induction false} FirstHeaderIgnoresCase(headers: seq<(string, string)>, a: string, b: string)
    requires EqualsIgnoreCase(a, b)
    ensures FirstHeader(headers, a) == FirstHeader(headers, b)
    decreases |headers|
  {
    if |headers| > 0 {
      FirstHeaderIgnoresCase(headers[1..], a, b);
    }
  }

  /** `getHeader` ignores the case of the name asked for. */
  lemma GetHeaderIgnoresCase(headers: seq<(string, string)>, a: string, b: string)
    requires EqualsIgnoreCase(a, b)
    ensures GetHeader(headers, a) == GetHeader(headers, b)
  {
    FirstHeaderIgnoresCase(headers, a, b);
  }

  /** A later header of the same name is ignored: putting a header in
      front answers a lookup of its name with its trimmed value. */
  lemma GetHeaderPrefersFirst(name: string, value: string, headers: seq<(string, string)>, asked: string)
    requires EqualsIgnoreCase(name, asked)
    ensures GetHeader([(name, value)] + headers, asked) == Some(Trim(value))
  {
  }

  // ---------------------------------------------------------------------
  // convertMtaToEml read back
  // ---------------------------------------------------------------------

  /** The `Content-Type` value the EML text carries. */
  function EmlContentType(m: MtaMessage): string {
    GetHeader(m.headers, "Content-Type").GetOr(DefaultContentType)
  }

  /** The lines of the EML text before the body. */
  function EmlHeaderLines(m: MtaMessage, date: string): seq<string> {
    HeaderBlock(date, m.from, JoinWith(m.to, ", "), EmlContentType(m))
  }

  function HeaderBlock(date: string, from: string, to: string, contentType: string): seq<string> {
    ["MIME-Version: 1.0", "Date: " + date, "From: " + from, "To: " + to, "Content-Type: " + contentType, ""]
  }

  /** A labelled value is free of newlines when both parts are. */
  lemma LabelledLine(name: string, v: string)
    requires '\n' !in name && '\n' !in v
    ensures '\n' !in name + v
  {
  }

  /** No header line holds a newline when no header value does. */
  lemma HeaderBlockFree(date: string, from: string, to: string, contentType: string)
    requires '\n' !in date && '\n' !in from && '\n' !in to && '\n' !in contentType
    ensures forall i :: 0 <= i < 6 ==> '\n' !in HeaderBlock(date, from, to, contentType)[i]
  {
    LabelledLine("Date: ", date);
    LabelledLine("From: ", from);
    LabelledLine("To: ", to);
    LabelledLine("Content-Type: ", contentType);
    assert '\n' !in "MIME-Version: 1.0";
  }

  /** Split at newlines, the EML text is its header lines followed by the
      lines of the unescaped body, provided no header value holds a
      newline. */
  lemma EmlLines(m: MtaMessage, date: string, decoded: string)
    requires '\n' !in date && '\n' !in m.from
    requires forall i :: 0 <= i < |m.to| ==> '\n' !in m.to[i]
    requires '\n' !in EmlContentType(m)
    ensures Split(ConvertMtaToEml(m, date, decoded), '\n') == EmlHeaderLines(m, date) + Split(Unescape(decoded), '\n')
  {
    var hs := EmlHeaderLines(m, date);
    var xs := hs + [Unescape(decoded)];
    assert xs == ["MIME-Version: 1.0", "Date: " + date, "From: " + m.from,
      "To: " + JoinWith(m.to, ", "), "Content-Type: " + EmlContentType(m), "", Unescape(decoded)];
    assert ConvertMtaToEml(m, date, decoded) == JoinWith(xs, "\n");
    NotInJoin(m.to, ", ", '\n');
    HeaderBlockFree(date, m.from, JoinWith(m.to, ", "), EmlContentType(m));
    SplitJoinLines(hs, Unescape(decoded), '\n');
  }

  /** Read back line by line, the EML text is the five header lines, an
      empty line, and then the unescaped body, whose lines join back into
      it — provided no header value holds a newline. */
  lemma EmlReadBack(m: MtaMessage, date: string, decoded: string)
    requires '\n' !in date && '\n' !in m.from
    requires forall i :: 0 <= i < |m.to| ==> '\n' !in m.to[i]
    requires '\n' !in EmlContentType(m)
    ensures var lines := Split(ConvertMtaToEml(m, date, decoded), '\n');
      && |lines| > 6
      && lines[0] == "MIME-Version: 1.0"
      && lines[1] == "Date: " + date
      && lines[2] == "From: " + m.from
      && lines[3] == "To: " + JoinWith(m.to, ", ")
      && lines[4] == "Content-Type: " + EmlContentType(m)
      && lines[5] == ""
      && JoinWith(lines[6..], "\n") == Unescape(decoded)
  {
    var body := Unescape(decoded);
    EmlLines(m, date, decoded);
    var lines := Split(ConvertMtaToEml(m, date, decoded), '\n');
    assert lines[6..] == Split(body, '\n');
    JoinSplit(body, '\n');
  }

  /** The `To:` value splits back at its commas into the recipients, each
      after the first with the space of the `", "` separator in front. */
  lemma EmlRecipients(m: MtaMessage)
    requires |m.to| > 0
    requires forall i :: 0 <= i < |m.to| ==> ',' !in m.to[i]
    ensures Split(JoinWith(m.to, ", "), ',') == [m.to[0]] + Spaced(m.to[1..])
  {
    SplitJoin(m.to);
  }

  // ---------------------------------------------------------------------
  // parseContent
  // ---------------------------------------------------------------------

  /** Filtering distributes over concatenation. */
  lemma {:induction false} KeptAppend(a: seq<EmlAttachment>, b: seq<EmlAttachment>)
    ensures Kept(a + b) == Kept(a) + Kept(b)
    decreases |a|
  {
    if |a| == 0 {
      assert a + b == b;
    } else {
      assert (a + b)[0] == a[0];
      assert (a + b)[1..] == a[1..] + b;
      KeptAppend(a[1..], b);
    }
  }

  /** When every attachment is named, all of them are kept. */
  lemma {:induction false} KeptAllNamed(atts: seq<EmlAttachment>)
    requires forall i :: 0 <= i < |atts| ==> Keep(atts[i])
    ensures Kept(atts) == atts
    decreases |atts|
  {
    if |atts| > 0 {
      KeptAllNamed(atts[1..]);
    }
  }

  /** The media type is parameter-free and trimmed, so taking it again
      changes nothing. */
  lemma MediaTypeIdempotent(contentType: string)
    ensures MediaType(MediaType(contentType)) == MediaType(contentType)
  {
    var r := MediaType(contentType);
    assert r[..|r|] == r;
    IndexOfAt(r, ';', |r|);
    TrimOfTrimmed(r);
  }

  /** The media type is the text before the first `;`, trimmed. */
  lemma MediaTypeIsHead(contentType: string)
    ensures MediaType(contentType) == Trim(contentType[..IndexOf(contentType, ';')])
  {
  }

  /** Stripping works character by character, so it keeps the other
      characters in their order. */
  lemma {:induction false} StripAnglesAppend(a: string, b: string)
    ensures StripAngles(a + b) == StripAngles(a) + StripAngles(b)
    decreases |a|
  {
    if |a| > 0 {
      assert (a + b)[0] == a[0];
      assert (a + b)[1..] == a[1..] + b;
      StripAnglesAppend(a[1..], b);
    } else {
      assert a + b == b;
    }
  }

  /** An id without angle brackets is left as it is, so stripping them is
      idempotent. */
  lemma {:induction false} StripAnglesClean(id: string)
    requires '<' !in id && '>' !in id
    ensures StripAngles(id) == id
    decreases |id|
  {
    if |id| > 0 {
      assert id == [id[0]] + id[1..];
      StripAnglesClean(id[1..]);
    }
  }

  /** Without a kept inline attachment that has a content id, the content
      is not rewritten. */
  lemma {:induction false} RewriteContentWithoutInline(atts: seq<EmlAttachment>, k: nat, content: string, isMarkdown: bool, ext: Externals)
    requires forall i :: 0 <= i < |atts| ==> !(Keep(atts[i]) && atts[i].inline && atts[i].id.Some?)
    ensures RewriteContent(atts, k, content, isMarkdown, ext) == Success(content)
    decreases |atts|
  {
    if |atts| > 0 {
      RewriteContentWithoutInline(atts[1..], if Keep(atts[0]) then k + 1 else k, content, isMarkdown, ext);
    }
  }

  /** In Markdown content the rewrite loop throws exactly when some kept
      attachment is inline with a content id whose pattern the `RegExp`
      constructor rejects; the content itself plays no part. */
  lemma {:induction false} RewriteFailsIffBadCid(atts: seq<EmlAttachment>, k: nat, content: string, ext: Externals)
    ensures RewriteContent(atts, k, content, true, ext).Failure? <==> AnyBadCid(atts, ext)
    decreases |atts|
  {
    if |atts| > 0 {
      var k' := if Keep(atts[0]) then k + 1 else k;
      var r0 := if Keep(atts[0]) then RewriteInline(content, atts[0], ext.uuid(k), true, ext) else Success(content);
      if r0.Success? {
        RewriteFailsIffBadCid(atts[1..], k', r0.value, ext);
        if AnyBadCid(atts, ext) {
          var i :| 0 <= i < |atts| && Keep(atts[i]) && BadCid(atts[i], ext);
          assert atts[1..][i - 1] == atts[i];
        }
        if AnyBadCid(atts[1..], ext) {
          var j :| 0 <= j < |atts[1..]| && Keep(atts[1..][j]) && BadCid(atts[1..][j], ext);
          assert atts[j + 1] == atts[1..][j];
        }
      }
    }
  }

  /** What a parsed non-plain email stores: the `i`-th attachment comes
      from the `i`-th named attachment, keeps its name, gets the `i`-th
      UUID, the decoded data and the media type of its content type; the
      parse succeeds unless the inline-image rewrite throws. */
  lemma ParseContentAttachment(email: Eml, ext: Externals, i: nat)
    requires i < |Kept(email.attachments.GetOr([]))|
    ensures ParseEmail(email, ext).Success? <==>
      !(Markdown(email, ext).Some? && AnyBadCid(email.attachments.GetOr([]), ext))
    ensures ParseEmail(email, ext).Success? ==>
      var a := Kept(email.attachments.GetOr([]))[i];
      var stored := ParseEmail(email, ext).value.attachments[i];
      && stored.name == a.name.value
      && stored.id == ext.uuid(i)
      && stored.data == ext.base64(a.data64)
      && stored.contentType == MediaType(a.contentType)
  {
    var atts := email.attachments.GetOr([]);
    CollectAttachmentsAt(atts, 0, ext, i);
    if Markdown(email, ext).Some? {
      RewriteFailsIffBadCid(atts, 0, BodyContent(email, ext), ext);
    }
  }
}

=== FILE: mail_text.dfy ===
/** The JavaScript string primitives the inbound-mail helpers rely on:
    `trim`, ASCII case folding, `startsWith`, `join` and `split`. Strings
    are sequences of Unicode scalar values. */
module MailText {
  import opened Base

  /** The characters `String.prototype.trim` strips: the ECMAScript
      WhiteSpace and LineTerminator productions. */
  predicate IsJsSpace(c: char) {
    || c == '\t' || c == '\n' || c == '\U{000B}' || c == '\U{000C}' || c == '\r'
    || c == ' ' || c == '\U{00A0}' || c == '\U{1680}'
    || ('\U{2000}' <= c <= '\U{200A}')
    || c == '\U{2028}' || c == '\U{2029}' || c == '\U{202F}' || c == '\U{205F}'
    || c == '\U{3000}' || c == '\U{FEFF}'
  }

  /** The ECMAScript line terminators. */
  predicate IsLineTerminator(c: char) {
    c == '\n' || c == '\r' || c == '\U{2028}' || c == '\U{2029}'
  }

  predicate AllSpace(s: string) {
    forall i :: 0 <= i < |s| ==> IsJsSpace(s[i])
  }

  /** The number of leading spaces of `s`. */
  function LeadingSpaces(s: string): (n: nat)
    ensures n <= |s|
    ensures forall k :: 0 <= k < n ==> IsJsSpace(s[k])
    ensures n < |s| ==> !IsJsSpace(s[n])
    decreases |s|
  {
    if |s| > 0 && IsJsSpace(s[0]) then 1 + LeadingSpaces(s[1..]) else 0
  }

  /** The length of `s` without its trailing spaces. */
  function TrailingStart(s: string): (n: nat)
    ensures n <= |s|
    ensures forall k :: n <= k < |s| ==> IsJsSpace(s[k])
    ensures n > 0 ==> !IsJsSpace(s[n - 1])
    decreases |s|
  {
    if |s| > 0 && IsJsSpace(s[|s| - 1]) then TrailingStart(s[..|s| - 1]) else |s|
  }

  /** `trim`: `s` without its leading and trailing spaces. The result is
      the slice of `s` starting after the leading spaces, everything after
      it is space, and it neither starts nor ends with a space. */
  function Trim(s: string): (r: string)
    ensures |r| <= |s|
    ensures var i := LeadingSpaces(s);
      && i + |r| <= |s|
      && r == s[i..i + |r|]
      && (forall k :: i + |r| <= k < |s| ==> IsJsSpace(s[k]))
    ensures |r| > 0 ==> !IsJsSpace(r[0]) && !IsJsSpace(r[|r| - 1])
  {
    var i := LeadingSpaces(s);
    var j := TrailingStart(s[i..]);
    TrimmedTail(s, i, j);
    s[i..i + j]
  }

  /** What `TrailingStart` says of the rest after the leading spaces, in
      the indices of the whole string. */
  lemma TrimmedTail(s: string, i: nat, j: nat)
    requires i <= |s| && j == TrailingStart(s[i..])
    ensures i + j <= |s|
    ensures forall k :: i + j <= k < |s| ==> IsJsSpace(s[k])
    ensures j > 0 ==> !IsJsSpace(s[i + j - 1])
  {
    var t := s[i..];
    assert forall k :: i + j <= k < |s| ==> s[k] == t[k - i];
  }

  /** A string trims to the empty string exactly when it is all space. */
  lemma TrimEmptyIffAllSpace(s: string)
    ensures Trim(s) == "" <==> AllSpace(s)
  {
    var r := Trim(s);
    var i := LeadingSpaces(s);
    assert |r| > 0 ==> r[0] == s[i];
  }

  /** ASCII case folding of one character. */
  function LowerChar(c: char): char {
    if 'A' <= c <= 'Z' then (c as int + 32) as char else c
  }

  /** `toLowerCase`, restricted to ASCII letters. */
  function Lower(s: string): (r: string)
    ensures |r| == |s|
    ensures forall i :: 0 <= i < |s| ==> r[i] == LowerChar(s[i])
  {
    seq(|s|, i requires 0 <= i < |s| => LowerChar(s[i]))
  }

  /** Equality up to ASCII case. */
  predicate EqualsIgnoreCase(a: string, b: string) {
    Lower(a) == Lower(b)
  }

  predicate StartsWith(s: string, prefix: string) {
    |prefix| <= |s| && s[..|prefix|] == prefix
  }

  /** `xs.join(sep)`. */
  function JoinWith(xs: seq<string>, sep: string): string
    decreases |xs|
  {
    if |xs| == 0 then ""
    else if |xs| == 1 then xs[0]
    else xs[0] + sep + JoinWith(xs[1..], sep)
  }

  /** The index of the first `c` in `s`, or `|s|`. */
  function IndexOf(s: string, c: char): (i: nat)
    ensures i <= |s|
    ensures i < |s| ==> s[i] == c
    ensures c !in s[..i]
    decreases |s|
  {
    if |s| == 0 then 0
    else if s[0] == c then 0
    else
      var j := IndexOf(s[1..], c);
      assert s[..j + 1] == [s[0]] + s[1..][..j];
      1 + j
  }

  /** `s.split(sep)`, for a one-character separator. */
  function Split(s: string, sep: char): (r: seq<string>)
    ensures |r| > 0
    ensures sep !in r[0] && StartsWith(s, r[0])
    decreases |s|
  {
    var i := IndexOf(s, sep);
    if i == |s| then [s] else [s[..i]] + Split(s[i + 1..], sep)
  }

  /** `IndexOf` finds the position `j` whenever `c` sits at `j` (or `j`
      is the end) and does not occur before it. */
  lemma {:induction false} IndexOfAt(s: string, c: char, j: nat)
    requires j <= |s| && c !in s[..j]
    requires j < |s| ==> s[j] == c
    ensures IndexOf(s, c) == j
    decreases |s|
  {
    if j > 0 {
      assert s[0] == s[..j][0];
      assert s[1..][..j - 1] == s[..j][1..];
      IndexOfAt(s[1..], c, j - 1);
    }
  }

  /** Each item with a space in front: the pieces `", "`-joined items
      split into at the commas, after the first. */
  function Spaced(xs: seq<string>): (r: seq<string>)
    ensures |r| == |xs|
    decreases |xs|
  {
    if |xs| == 0 then [] else [" " + xs[0]] + Spaced(xs[1..])
  }

  /** The join of comma-free items splits back at the commas into the
      items: `JoinWith(xs, ", ")` loses nothing and adds nothing but the
      separators. */
  lemma {:induction false} SplitJoin(xs: seq<string>)
    requires |xs| > 0
    requires forall i :: 0 <= i < |xs| ==> ',' !in xs[i]
    ensures Split(JoinWith(xs, ", "), ',') == [xs[0]] + Spaced(xs[1..])
    decreases |xs|
  {
    var s := JoinWith(xs, ", ");
    if |xs| == 1 {
      assert s[..|s|] == xs[0];
      IndexOfAt(s, ',', |s|);
    } else {
      var rest := JoinWith(xs[1..], ", ");
      assert s == xs[0] + ", " + rest;
      assert s[..|xs[0]|] == xs[0];
      IndexOfAt(s, ',', |xs[0]|);
      assert s[|xs[0]| + 1..] == " " + rest;
      assert Split(s, ',') == [xs[0]] + Split(" " + rest, ',');
      SplitJoin(xs[1..]);
      SplitSpacePrefix(rest);
      assert xs[1..][1..] == xs[2..];
      assert Split(rest, ',') == [xs[1]] + Spaced(xs[2..]);
      assert Split(" " + rest, ',') == [" " + xs[1]] + Spaced(xs[2..]);
      assert Spaced(xs[1..]) == [" " + xs[1]] + Spaced(xs[2..]);
    }
  }

  /** Prefixing a space changes only the first piece of a split. */
  lemma SplitSpacePrefix(s: string)
    ensures Split(" " + s, ',') == [" " + Split(s, ',')[0]] + Split(s, ',')[1..]
  {
    var t := " " + s;
    assert t[1..] == s;
    var j := IndexOf(s, ',');
    assert t[..j + 1] == " " + s[..j];
    IndexOfAt(t, ',', j + 1);
    if j < |s| {
      assert t[j + 2..] == s[j + 1..];
    }
  }

  /** Trimming a string that neither starts nor ends with a space leaves
      it as it is, so `trim` is idempotent. */
  lemma TrimOfTrimmed(s: string)
    requires |s| > 0 ==> !IsJsSpace(s[0]) && !IsJsSpace(s[|s| - 1])
    ensures Trim(s) == s
  {
    assert LeadingSpaces(s) == 0;
    assert s[0..] == s;
  }

  /** Joining the pieces of a split with the separator gives back the
      string: `split` loses nothing but the separators. */
  lemma {:induction false} JoinSplit(s: string, c: char)
    ensures JoinWith(Split(s, c), [c]) == s
    decreases |s|
  {
    var i := IndexOf(s, c);
    if i < |s| {
      var rest := Split(s[i + 1..], c);
      var pieces := [s[..i]] + rest;
      assert Split(s, c) == pieces;
      assert pieces[1..] == rest;
      JoinSplit(s[i + 1..], c);
      assert JoinWith(pieces, [c]) == s[..i] + [c] + s[i + 1..];
      assert s == s[..i] + [c] + s[i + 1..];
    }
  }

  /** A first line free of the separator splits off as the first piece. */
  lemma SplitAfterLine(a: string, c: char, b: string)
    requires c !in a
    ensures Split(a + [c] + b, c) == [a] + Split(b, c)
  {
    var t := a + [c] + b;
    assert t[..|a|] == a;
    IndexOfAt(t, c, |a|);
    assert t[|a| + 1..] == b;
  }

  /** A character in neither the items nor the separator is not in their
      join. */
  lemma {:induction false} NotInJoin(xs: seq<string>, sep: string, c: char)
    requires forall i :: 0 <= i < |xs| ==> c !in xs[i]
    requires c !in sep
    ensures c !in JoinWith(xs, sep)
    decreases |xs|
  {
    if |xs| > 1 {
      NotInJoin(xs[1..], sep, c);
    }
  }

  /** Lines joined with a separator free of it split back into those
      lines, the last one split further by whatever separators it holds. */
  lemma {:induction false} SplitJoinLines(xs: seq<string>, last: string, c: char)
    requires forall i :: 0 <= i < |xs| ==> c !in xs[i]
    ensures Split(JoinWith(xs + [last], [c]), c) == xs + Split(last, c)
    decreases |xs|
  {
    if |xs| == 0 {
      assert xs + [last] == [last];
    } else {
      SplitJoinLines(xs[1..], last, c);
      SplitJoinLinesStep(xs, last, c);
    }
  }

  /** The step of `SplitJoinLines`: a first line free of the separator
      splits off in front of the rest. */
  lemma SplitJoinLinesStep(xs: seq<string>, last: string, c: char)
    requires |xs| > 0 && c !in xs[0]
    requires Split(JoinWith(xs[1..] + [last], [c]), c) == xs[1..] + Split(last, c)
    ensures Split(JoinWith(xs + [last], [c]), c) == xs + Split(last, c)
  {
    var ys := xs[1..] + [last];
    TailOfSnoc(xs, last);
    var j := JoinWith(ys, [c]);
    assert JoinWith(xs + [last], [c]) == xs[0] + [c] + j;
    SplitAfterLine(xs[0], c, j);
    var t := Split(last, c);
    ConsTail(xs);
    ConcatAssoc([xs[0]], xs[1..], t);
  }
}

=== FILE: mail_utils.dfy ===
/** The string helpers of the inbound-mail service: header lookup,
    escape-sequence rewriting, removal of a `Content-Type:` line, the
    emptiness test, the deterministic part of content parsing and the EML
    text built from an MTA message. The EML parser, HTML sanitiser,
    Markdown converter, UUID source, base64 decoder and clock are inputs. */
module InboundMail {
  import opened Base
  import opened MailText

  /** The fields of an MTA message this code reads: the envelope sender,
      the envelope recipients' addresses and the header list in order. */
  datatype MtaMessage = MtaMessage(from: string, to: seq<string>, headers: seq<(string, string)>)

  // ---------------------------------------------------------------------
  // getHeader
  // ---------------------------------------------------------------------

  predicate NameMatches(header: (string, string), name: string) {
    EqualsIgnoreCase(header.0, name)
  }

  /** The index of the first header named `name` (ignoring case), or the
      length of the list when there is none. */
  function FirstHeader(headers: seq<(string, string)>, name: string): (i: nat)
    ensures i <= |headers|
    ensures i < |headers| ==> NameMatches(headers[i], name)
    ensures forall j :: 0 <= j < i ==> !NameMatches(headers[j], name)
    decreases |headers|
  {
    if |headers| == 0 then 0
    else if NameMatches(headers[0], name) then 0
    else 1 + FirstHeader(headers[1..], name)
  }

  /** `getHeader`: the trimmed value of the first header whose name
      equals `name` up to case, or nothing when no name matches. */
  function GetHeader(headers: seq<(string, string)>, name: string): (r: Option<string>)
    ensures r.None? <==> forall j :: 0 <= j < |headers| ==> !NameMatches(headers[j], name)
    ensures r.Some? ==>
      (exists i :: && 0 <= i < |headers| && NameMatches(headers[i], name)
                   && (forall j :: 0 <= j < i ==> !NameMatches(headers[j], name))
                   && r.value == Trim(headers[i].1))
  {
    var i := FirstHeader(headers, name);
    if i == |headers| then None else Some(Trim(headers[i].1))
  }

  // ---------------------------------------------------------------------
  // unescapeString
  // ---------------------------------------------------------------------

  /** One `str.replace(/\\<code>/g, repl)`: a left-to-right scan that
      turns every non-overlapping backslash-`code` pair into `repl`. */
  function ReplaceEscape(s: string, code: char, repl: char): (r: string)
    ensures |r| <= |s|
    ensures '\\' !in s ==> r == s
    decreases |s|
  {
    if |s| < 2 then s
    else if s[0] == '\\' && s[1] == code then [repl] + ReplaceEscape(s[2..], code, repl)
    else [s[0]] + ReplaceEscape(s[1..], code, repl)
  }

  /** `unescapeString`: the five rewrites in their fixed order `\n`, `\r`,
      `\t`, `\"`, `\\`. A string without a backslash comes back unchanged,
      and the result is never longer than the input. */
  function Unescape(s: string): (r: string)
    ensures |r| <= |s|
    ensures '\\' !in s ==> r == s
  {
    var s1 := ReplaceEscape(s, 'n', '\n');
    var s2 := ReplaceEscape(s1, 'r', '\r');
    var s3 := ReplaceEscape(s2, 't', '\t');
    var s4 := ReplaceEscape(s3, '"', '"');
    ReplaceEscape(s4, '\\', '\\')
  }

  // ---------------------------------------------------------------------
  // removeContentTypeHeader: /^Content-Type:.*?(?:\r\n|\n|\r)/im
  // ---------------------------------------------------------------------

  const ContentTypeName := "content-type:"

  /** `^` under the `m` flag: the start of input or just after a line
      terminator. */
  predicate AtLineStart(s: string, p: nat) {
    p == 0 || (p <= |s| && IsLineTerminator(s[p - 1]))
  }

  /** `Content-Type:` (any ASCII case) begins at `p`. */
  predicate ContentTypeAt(s: string, p: nat) {
    p + |ContentTypeName| <= |s| && Lower(s[p..p + |ContentTypeName|]) == ContentTypeName
  }

  /** The first line terminator at or after `j`, or the end of `s`. */
  function LineEnd(s: string, j: nat): (k: nat)
    requires j <= |s|
    ensures j <= k <= |s|
    ensures k < |s| ==> IsLineTerminator(s[k])
    ensures forall m :: j <= m < k ==> !IsLineTerminator(s[m])
    decreases |s| - j
  {
    if j == |s| || IsLineTerminator(s[j]) then j else LineEnd(s, j + 1)
  }

  /** Where a match starting at `p` ends: the lazy `.*?` stops at the first
      line terminator, which must be `\r\n`, `\n` or `\r` (tried in that
      order); U+2028 and U+2029 end the line without being accepted, and a
      line with no terminator does not match. */
  function MatchAt(s: string, p: nat): (r: Option<nat>)
    ensures r.Some? ==> p < r.value <= |s|
  {
    if !(AtLineStart(s, p) && ContentTypeAt(s, p)) then None
    else
      var k := LineEnd(s, p + |ContentTypeName|);
      if k == |s| then None
      else if s[k] == '\r' then
        if k + 1 < |s| && s[k + 1] == '\n' then Some(k + 2) else Some(k + 1)
      else if s[k] == '\n' then Some(k + 1)
      else None
  }

  /** The leftmost match at or after `p`, as (start, end). */
  function FirstMatch(s: string, p: nat): (r: Option<(nat, nat)>)
    ensures r.Some? ==> p <= r.value.0 < r.value.1 <= |s| && MatchAt(s, r.value.0) == Some(r.value.1)
    ensures r.Some? ==> forall q :: p <= q < r.value.0 ==> MatchAt(s, q).None?
    ensures r.None? ==> forall q :: p <= q <= |s| ==> MatchAt(s, q).None?
    decreases |s| + 1 - p
  {
    if p > |s| then None
    else
      match MatchAt(s, p)
      case Some(e) => Some((p, e))
      case None => FirstMatch(s, p + 1)
  }

  /** `removeContentTypeHeader`: a missing string is returned as it is;
      otherwise the first terminated `Content-Type:` line, with its
      terminator, is cut out and everything else is kept in place. */
  function RemoveContentTypeHeader(content: Option<string>): (r: Option<string>)
    ensures content.None? ==> r.None?
    ensures content.Some? ==> r.Some? && |r.value| <= |content.value|
  {
    match content
    case None => None
    case Some(s) =>
      match FirstMatch(s, 0)
      case None => Some(s)
      case Some((p, e)) => Some(s[..p] + s[e..])
  }

  // ---------------------------------------------------------------------
  // isEmptyString
  // ---------------------------------------------------------------------

  /** `isEmptyString`: missing, or nothing but whitespace. */
  function IsEmptyString(s: Option<string>): (r: bool)
    ensures r <==> s.None? || AllSpace(s.value)
  {
    if s.None? then true
    else
      TrimEmptyIffAllSpace(s.value);
      Trim(s.value) == ""
  }

  // ---------------------------------------------------------------------
  // convertMtaToEml
  // ---------------------------------------------------------------------

  const DefaultContentType := "text/plain; charset=utf-8"

  /** `convertMtaToEml`: the five header lines, a blank line, and the
      unescaped decoded body, separated by newlines. `date` is the clock
      reading rendered by `toUTCString` and `decoded` is what
      `getDecodedContent` returns. */
  function ConvertMtaToEml(m: MtaMessage, date: string, decoded: string): string {
    JoinWith([
      "MIME-Version: 1.0",
      "Date: " + date,
      "From: " + m.from,
      "To: " + JoinWith(m.to, ", "),
      "Content-Type: " + GetHeader(m.headers, "Content-Type").GetOr(DefaultContentType),
      "",
      Unescape(decoded)], "\n")
  }

  // ---------------------------------------------------------------------
  // parseContent
  // ---------------------------------------------------------------------

  /** An attachment as the EML parser reports it. */
  datatype EmlAttachment = EmlAttachment(name: Option<string>, data64: string, contentType: string, inline: bool, id: Option<string>)

  /** The parsed email: optional text and HTML bodies and attachments. */
  datatype Eml = Eml(text: Option<string>, html: Option<string>, attachments: Option<seq<EmlAttachment>>)

  /** What the `readEml` callback receives: an error, a result, both or
      neither. */
  datatype EmlReply = EmlReply(err: Option<string>, json: Option<Eml>)

  /** An attachment as this service stores it. */
  datatype Attachment = Attachment(id: string, name: string, data: Bytes, contentType: string)

  datatype Parsed = Parsed(content: string, attachments: seq<Attachment>)

  /** The collaborators `parseContent` calls and this model does not
      interpret: the decoded message body, the clock, the EML parser, the
      HTML-to-Markdown pipeline (`None` when it throws), the UUID for the
      `k`-th kept attachment, base64 decoding, the verdict of the
      `RegExp` constructor on a pattern with flag `g` (`Some(reason)` when
      it throws a `SyntaxError`), and the `replaceAll` of Markdown image
      references to one content id under an accepted pattern. */
  datatype Externals = Externals(
    decoded: string,
    date: string,
    readEml: string -> EmlReply,
    toMarkdown: string -> Option<string>,
    uuid: nat -> string,
    base64: string -> Bytes,
    patternError: string -> Option<string>,
    rewriteCid: (string, string, string, string) -> string)

  /** An attachment is kept only when it has a non-empty name. */
  predicate Keep(a: EmlAttachment) {
    a.name.Some? && |a.name.value| > 0
  }

  /** The attachments that survive the name filter, in input order. */
  function Kept(atts: seq<EmlAttachment>): (r: seq<EmlAttachment>)
    ensures |r| <= |atts|
    ensures forall i :: 0 <= i < |r| ==> Keep(r[i]) && r[i] in atts
    ensures forall a :: a in atts && Keep(a) ==> a in r
    decreases |atts|
  {
    if |atts| == 0 then []
    else if Keep(atts[0]) then [atts[0]] + Kept(atts[1..])
    else Kept(atts[1..])
  }

  /** `contentType.split(';')[0].trim()`: the media type without
      parameters. */
  function MediaType(contentType: string): (r: string)
    ensures ';' !in r
    ensures |r| > 0 ==> !IsJsSpace(r[0]) && !IsJsSpace(r[|r| - 1])
  {
    var head := Split(contentType, ';')[0];
    var r := Trim(head);
    assert ';' !in r by {
      var i := LeadingSpaces(head);
      forall k | 0 <= k < |r|
        ensures r[k] != ';'
      {
        assert r[k] == head[i + k];
      }
    }
    r
  }

  /** `id.replace(/[<>]/g, '')`. */
  function StripAngles(id: string): (r: string)
    ensures '<' !in r && '>' !in r
    ensures |r| <= |id|
    ensures forall c :: c != '<' && c != '>' ==> multiset(r)[c] == multiset(id)[c]
    decreases |id|
  {
    if |id| == 0 then ""
    else if id[0] == '<' || id[0] == '>' then
      assert id == [id[0]] + id[1..];
      StripAngles(id[1..])
    else
      assert id == [id[0]] + id[1..];
      [id[0]] + StripAngles(id[1..])
  }

  /** The stored form of the `k`-th kept attachment. */
  function Convert(a: EmlAttachment, k: nat, ext: Externals): Attachment {
    Attachment(ext.uuid(k), a.name.GetOr(""), ext.base64(a.data64), MediaType(a.contentType))
  }

  /** The source of the regular expression that finds the Markdown image
      references to content id `cid`; `cid` is spliced in unescaped. */
  function CidPattern(cid: string): string {
    "!\\[.*?\\]\\(cid:" + cid + "\\)"
  }

  const SyntaxErrorPrefix := "Invalid regular expression: "

  /** The message of the `SyntaxError` the `RegExp` constructor throws for
      the pattern of `cid`, given the engine's reason. */
  function CidPatternError(cid: string, reason: string): string {
    SyntaxErrorPrefix + "/" + CidPattern(cid) + "/g: " + reason
  }

  /** The rewrite of an inline attachment with a content id throws when
      its id, stripped of `<` and `>`, does not give a valid pattern. */
  predicate BadCid(a: EmlAttachment, ext: Externals) {
    a.inline && a.id.Some? && ext.patternError(CidPattern(StripAngles(a.id.value))).Some?
  }

  /** Some kept attachment's rewrite would throw. */
  predicate AnyBadCid(atts: seq<EmlAttachment>, ext: Externals) {
    exists i :: 0 <= i < |atts| && Keep(atts[i]) && BadCid(atts[i], ext)
  }

  /** In Markdown content, point the inline image that references the
      attachment's content id (without `<` and `>`) at its new id; a
      pattern the `RegExp` constructor rejects throws. */
  function RewriteInline(content: string, a: EmlAttachment, newId: string, isMarkdown: bool, ext: Externals): (r: Result<string, string>)
    requires Keep(a)
    ensures r.Failure? <==> isMarkdown && BadCid(a, ext)
    ensures r.Failure? ==> StartsWith(r.error, SyntaxErrorPrefix)
    ensures r.Failure? ==>
      var cid := StripAngles(a.id.value);
      r.error == CidPatternError(cid, ext.patternError(CidPattern(cid)).value)
  {
    if isMarkdown && a.inline && a.id.Some? then
      var cid := StripAngles(a.id.value);
      match ext.patternError(CidPattern(cid))
      case Some(reason) => Failure(CidPatternError(cid, reason))
      case None => Success(ext.rewriteCid(content, cid, a.name.value, newId))
    else Success(content)
  }

  /** `f` applied to each element together with its position counted
      from `k`. */
  function MapFrom<A, B>(xs: seq<A>, k: nat, f: (A, nat) -> B): (r: seq<B>)
    ensures |r| == |xs|
    decreases |xs|
  {
    if |xs| == 0 then [] else [f(xs[0], k)] + MapFrom(xs[1..], k + 1, f)
  }

  lemma {:induction false} MapFromAt<A, B>(xs: seq<A>, k: nat, f: (A, nat) -> B, i: nat)
    requires i < |xs|
    ensures MapFrom(xs, k, f)[i] == f(xs[i], k + i)
    decreases i
  {
    if i > 0 {
      MapFromAt(xs[1..], k + 1, f, i - 1);
      assert xs[1..][i - 1] == xs[i];
    }
  }

  /** The kept attachments converted in order, numbering UUIDs from `k`. */
  function ConvertAll(kept: seq<EmlAttachment>, k: nat, ext: Externals): seq<Attachment> {
    MapFrom(kept, k, Converter(ext))
  }

  function Converter(ext: Externals): (EmlAttachment, nat) -> Attachment {
    (a: EmlAttachment, n: nat) => Convert(a, n, ext)
  }

  /** The attachments the loop of `parseContent` stores, numbering kept
      attachments from `k`: unnamed parts are skipped and the rest are
      converted in order. */
  function CollectAttachments(atts: seq<EmlAttachment>, k: nat, ext: Externals): (r: seq<Attachment>)
    ensures r == ConvertAll(Kept(atts), k, ext)
    decreases |atts|
  {
    if |atts| == 0 then []
    else if !Keep(atts[0]) then CollectAttachments(atts[1..], k, ext)
    else
      var kept := [atts[0]] + Kept(atts[1..]);
      assert kept[1..] == Kept(atts[1..]);
      [Convert(atts[0], k, ext)] + CollectAttachments(atts[1..], k + 1, ext)
  }

  /** The stored attachments are the named ones, in input order: the
      `i`-th comes from the `i`-th attachment with a non-empty name, keeps
      its name, gets the `k + i`-th UUID and the parameter-free media type. */
  lemma CollectAttachmentsAt(atts: seq<EmlAttachment>, k: nat, ext: Externals, i: nat)
    requires i < |Kept(atts)|
    ensures |CollectAttachments(atts, k, ext)| == |Kept(atts)|
    ensures var a := Kept(atts)[i];
      && CollectAttachments(atts, k, ext)[i] == Convert(a, k + i, ext)
      && CollectAttachments(atts, k, ext)[i].name == a.name.value
      && CollectAttachments(atts, k, ext)[i].id == ext.uuid(k + i)
      && CollectAttachments(atts, k, ext)[i].contentType == MediaType(a.contentType)
  {
    MapFromAt(Kept(atts), k, Converter(ext), i);
  }

  /** The content after the same loop: in Markdown content, each kept
      inline attachment's image reference is pointed at its new id; the
      first rejected pattern aborts the loop with its error. */
  function RewriteContent(atts: seq<EmlAttachment>, k: nat, content: string, isMarkdown: bool, ext: Externals): (r: Result<string, string>)
    ensures !isMarkdown ==> r == Success(content)
    ensures r.Failure? ==> StartsWith(r.error, SyntaxErrorPrefix)
    decreases |atts|
  {
    if |atts| == 0 then Success(content)
    else if !Keep(atts[0]) then RewriteContent(atts[1..], k, content, isMarkdown, ext)
    else
      match RewriteInline(content, atts[0], ext.uuid(k), isMarkdown, ext)
      case Failure(e) => Failure(e)
      case Success(c) => RewriteContent(atts[1..], k + 1, c, isMarkdown, ext)
  }

  const ParsingError := "Email parsing error: "

  const UndefinedResult := "Email parser returned undefined result"

  /** `getEmailContent`: parse the EML text; when both bodies are empty,
      fall back to the decoded content with its `Content-Type:` line
      removed. */
  function GetEmailContent(m: MtaMessage, ext: Externals): (r: Result<Eml, string>)
    ensures var reply := ext.readEml(ConvertMtaToEml(m, ext.date, ext.decoded));
      r.Success? <==> reply.err.None? && reply.json.Some?
    ensures var reply := ext.readEml(ConvertMtaToEml(m, ext.date, ext.decoded));
      reply.err.Some? ==> r == Failure(ParsingError + reply.err.value)
    ensures var reply := ext.readEml(ConvertMtaToEml(m, ext.date, ext.decoded));
      reply.err.None? && reply.json.None? ==> r == Failure(UndefinedResult)
    ensures var reply := ext.readEml(ConvertMtaToEml(m, ext.date, ext.decoded));
      r.Success? ==>
        && r.value.html == reply.json.value.html
        && r.value.attachments == reply.json.value.attachments
        && (!IsEmptyString(reply.json.value.text) || !IsEmptyString(reply.json.value.html) ==> r.value == reply.json.value)
    ensures var reply := ext.readEml(ConvertMtaToEml(m, ext.date, ext.decoded));
      r.Success? && IsEmptyString(reply.json.value.text) && IsEmptyString(reply.json.value.html) ==>
        r.value == reply.json.value.(text := RemoveContentTypeHeader(Some(ext.decoded)))
  {
    var reply := ext.readEml(ConvertMtaToEml(m, ext.date, ext.decoded));
    if reply.err.Some? then Failure(ParsingError + reply.err.value)
    else if reply.json.None? then Failure(UndefinedResult)
    else
      var email := reply.json.value;
      if IsEmptyString(email.text) && IsEmptyString(email.html) then
        Success(email.(text := RemoveContentTypeHeader(Some(ext.decoded))))
      else Success(email)
  }

  const MissingContentType := "Content-Type header not found"

  /** The Markdown rendering of the HTML body, when there is an HTML body
      and the pipeline does not throw. */
  function Markdown(email: Eml, ext: Externals): Option<string> {
    if email.html.Some? then ext.toMarkdown(email.html.value) else None
  }

  /** The content before the image rewrite: the Markdown rendering, or
      else the text body (`''` when there is none). */
  function BodyContent(email: Eml, ext: Externals): string {
    Markdown(email, ext).GetOr(email.text.GetOr(""))
  }

  /** `parseContent` after `getEmailContent` has produced `email`: pick the
      content, store the named attachments and rewrite inline image
      references. */
  function ParseEmail(email: Eml, ext: Externals): (r: Result<Parsed, string>)
    ensures var atts := email.attachments.GetOr([]);
      r.Success? <==> RewriteContent(atts, 0, BodyContent(email, ext), Markdown(email, ext).Some?, ext).Success?
    ensures r.Success? ==> |r.value.attachments| == |Kept(email.attachments.GetOr([]))|
    ensures Markdown(email, ext).None? ==> r.Success? && r.value.content == email.text.GetOr("")
    ensures r.Failure? ==> StartsWith(r.error, SyntaxErrorPrefix)
    ensures r.Success? ==>
      r.value.content == RewriteContent(email.attachments.GetOr([]), 0, BodyContent(email, ext), Markdown(email, ext).Some?, ext).value
  {
    var atts := email.attachments.GetOr([]);
    var md := Markdown(email, ext);
    match RewriteContent(atts, 0, BodyContent(email, ext), md.Some?, ext)
    case Failure(e) => Failure(e)
    case Success(content) => Success(Parsed(content, CollectAttachments(atts, 0, ext)))
  }

  /** `parseContent` once the content type is known not to be plain text:
      parse the EML text, then the email. Its errors are those of the
      parser and of the `RegExp` constructor, never the missing header. */
  function ParseRich(m: MtaMessage, ext: Externals): (r: Result<Parsed, string>)
    ensures GetEmailContent(m, ext).Failure? ==> r == Failure(GetEmailContent(m, ext).error)
    ensures GetEmailContent(m, ext).Success? ==> r == ParseEmail(GetEmailContent(m, ext).value, ext)
    ensures r != Failure(MissingContentType)
  {
    var reply := ext.readEml(ConvertMtaToEml(m, ext.date, ext.decoded));
    match GetEmailContent(m, ext)
    case Failure(e) =>
      assert e[0] == 'E' by {
        if reply.err.Some? {
          assert e == ParsingError + reply.err.value;
        } else {
          assert e == UndefinedResult;
        }
      }
      Failure(e)
    case Success(email) =>
      var r := ParseEmail(email, ext);
      assert r.Failure? ==> r.error[0] == 'I';
      r
  }

  /** `parseContent`. */
  function ParseContent(m: MtaMessage, ext: Externals): (r: Result<Parsed, string>)
    ensures GetHeader(m.headers, "Content-Type").None? <==> r == Failure(MissingContentType)
    ensures var ct := GetHeader(m.headers, "Content-Type");
      ct.Some? && StartsWith(Lower(ct.value), "text/plain") ==> r == Success(Parsed(ext.decoded, []))
    ensures var ct := GetHeader(m.headers, "Content-Type");
      ct.Some? && !StartsWith(Lower(ct.value), "text/plain") ==> r == ParseRich(m, ext)
  {
    match GetHeader(m.headers, "Content-Type")
    case None => Failure(MissingContentType)
    case Some(ct) =>
      if StartsWith(Lower(ct), "text/plain") then Success(Parsed(ext.decoded, []))
      else ParseRich(m, ext)
  }
}

=== FILE: paths.dfy ===
/** Resource addressing shared by both storage variants: a path is a
    sequence of segments and every operation targets `Join(root, name)`. */
module Paths {

  type Segment = string
  type Path = seq<Segment>

  /** Node's `path.join` on already-normalised segment lists. */
  function Join(root: Path, name: Path): Path {
    root + name
  }

  /** Node's `path.dirname`: the path without its last segment; the
      file-system root is its own parent. */
  function Dirname(p: Path): Path {
    if |p| == 0 then [] else p[..|p| - 1]
  }

  /** `a` is `b` or one of its ancestors. */
  predicate IsPrefix(a: Path, b: Path) {
    |a| <= |b| && b[..|a|] == a
  }

  /** `a` is a proper ancestor of `b`. */
  predicate IsStrictPrefix(a: Path, b: Path) {
    |a| < |b| && b[..|a|] == a
  }

  /** `c` is an immediate entry of directory `p`. */
  predicate IsChild(p: Path, c: Path) {
    |c| == |p| + 1 && c[..|p|] == p
  }

  /** The parent of an entry below the root is still below the root:
      addressing never climbs out of `root` by taking `Dirname`. */
  lemma DirnameOfJoin(root: Path, name: Path)
    requires |name| > 0
    ensures Dirname(Join(root, name)) == Join(root, Dirname(name))
    ensures IsPrefix(root, Dirname(Join(root, name)))
  {
    var p := Join(root, name);
    assert p[..|p| - 1] == root + name[..|name| - 1];
  }

  /** Two different names under one root address two different paths. */
  lemma JoinInjective(root: Path, n1: Path, n2: Path)
    requires Join(root, n1) == Join(root, n2)
    ensures n1 == n2
  {
    assert n1 == Join(root, n1)[|root|..];
  }
}

=== FILE: storage_types.dfy ===
/** Values shared by both backup-storage variants. */
module StorageTypes {
  import opened Base
  import opened Paths

  /** Metadata of one stored resource. `lastModified` is in epoch
      milliseconds; `etag` is opaque and backend-specific. */
  datatype FileInfo = FileInfo(size: nat, etag: string, contentType: Option<string>, lastModified: int)

  /** The zero-valued placeholder returned when metadata is unavailable. */
  const EmptyInfo := FileInfo(0, "", None, 0)

  /** An opaque stream handle bound to the address it reads or writes;
      the bytes that later flow through it are not modelled. */
  datatype Stream = ReadStream(source: Path) | WriteStream(target: Path)
}
